=== FILE: README.md ===
# Surf session tracker — a Dafny model of its core

The repository is a personal surf-session log with two front ends over one
hosted table store:

- a FastAPI service (`main.py`, `models.py`) that validates a create
  request, computes the session's total score, and inserts, lists, fetches
  and deletes sessions;
- a Streamlit dashboard (`superweirdonebud_supabase.py`) with its own parts:
  - sign-in and sign-up forms;
  - a list of the user's own sessions;
  - a form that records a new session;
  - record conversions between display labels ("Swell Period (s)") and
    storage columns (`swell_period_s`).

This project models the logic that remains once the store, the identity
service and the widgets are cut off:

| file | module | what it models |
|---|---|---|
| `scoring.dfy` | `Scoring` | `calculate_score`: the weighted blend of the mean of the present sub-scores with `estimated_return - cost` |
| `models.dfy` | `Models` | the create request (`SurfSessionCreate`): its field constraints and the errors validation reports |
| `api.dfy` | `Api` | the handlers: `create_session` (score, storage row, response, 422/500 outcomes), `get_sessions` (filters, order, row range, windowing), `get_session` and `delete_session` (404 versus 500) |
| `pyvalues.dfy` | `PyValues` | Python's dynamic values as the dashboard's dictionaries hold them, truthiness, and `float()`, `int()` (truncation toward zero) and `str()` |
| `pytext.dfy` | `PyText` | `str.strip`, and the decimal text of an integer (used in the 404 detail) |
| `columns.dfy` | `Columns` | the fixed tables: `column_mapping` (storage name → label) and the label and conversion every column is written from |
| `fieldmapping.dfy` | `FieldMapping` | `save_record`, `update_record`, `delete_record`, `load_user_records` and the rename on load |
| `signup.dfy` | `SignUp` | the checks behind "Sign In" and "Sign Up", in their order, with their warnings |
| `createview.dfy` | `CreateView` | the Browsing/Creating toggle, the record the form builds, the commentary join, and the list screen's columns |
| `backend.dfy` | `Backend` | the store's answer to one call: no client, an exception with its message, or the returned rows |
| `wrappers.dfy` | `Wrappers` | `Option` and `Result` |

Everything outside the program's own logic is an explicit parameter:

- **Store replies.** What the store answers is a `Reply`. The model states what the dashboard's calls, the create call and the listing send to the store (`StoreRequest`, `SessionRow`, `Query`), and how every operation reacts to each kind of answer; the API's lookup and delete by id are represented only by their replies.
- **Rounding.** Python's `round(x, 1)` is a function parameter `rnd`, applied exactly once to the final blended value.
- **The clock.** The "now" defaults are read from a `Clock` parameter.
- **Text parsing and float printing.** The text parsing inside `float()`/`int()` and the printing of floats are a `Parsers` parameter.

## Model

| member | source | states |
|---|---|---|
| Scoring.Present | main.py:45 | the present sub-scores are exactly the values of the non-`None` slots; none are present iff every slot is `None`, all iff every slot is filled |
| Scoring.CalculateScore | main.py:39-50 | for each of the eight combinations of present sub-scores, the score is `rnd` of the closed form: the base alone when none is present, otherwise the mean of exactly the present ones times 0.6 plus the base times 0.4 |
| Scoring.RawScoreCases | main.py:44-50 | the unrounded score in closed form for each combination of present sub-scores |
| Scoring.PresentCases | main.py:45 | which values, and with what sum, enter the mean for each combination of filled slots |
| Scoring.PresentOfThree | main.py:45 | filtering the three slots keeps the present values in slot order |
| Scoring.RawScoreBetweenConditionsAndBase | main.py:48-49 | because the weights sum to 1, the unrounded score lies between the conditions mean and the base |
| Scoring.RawScoreWithoutConditions | main.py:44-50 | with no sub-score the unrounded score is `estimated_return - cost` |
| Scoring.SumPermutation | main.py:48 | `sum` depends only on the multiset of its values |
| Scoring.RawScoreSlotIndependent | main.py:45-48 | two slot assignments with the same multiset of present sub-scores give the same unrounded score |
| Scoring.ScoreRotationInvariant | main.py:39-50 | rotating the swell, wind and tide slots never changes the score |
| Scoring.MeanWithinBounds | main.py:48 | the conditions value lies within any bounds of the present sub-scores |
| Scoring.ZeroSubScoreLowersScore | main.py:45 | a sub-score of 0 is averaged in, not treated as missing, and lowers the score of positive conditions |
| Scoring.BestCaseScoresHundred | main.py:44-49 | cost 0, return 100 and three sub-scores of 100 give exactly 100 before rounding |
| Scoring.WorstCaseWithoutConditions | main.py:44-50 | cost 100 and return 0 without sub-scores give -100 before rounding |
| Models.FieldCheck | models.py:18-24 | a field is reported iff it is rejected: a required field when missing or out of bounds (title 1..200 characters, description at least 1, cost and estimated_return in [0, 100]), the `date` detail whenever it holds a value; the error names that field |
| Models.Errors | models.py:15-21 | the collected errors are exactly the failed checks; there are none iff every check passed |
| Models.ChecksCoverFields | models.py:18-24 | the errors of one check per listed field name exactly the rejected fields among them |
| Models.Checked | models.py:15-24 | running the checks of a list of fields that includes the four required ones succeeds iff every listed field is accepted, and then yields exactly the request; otherwise every error names a rejected listed field and every rejected listed field has its error |
| Models.Validate | models.py:15-46 | as written: validation succeeds iff the four required fields are present and within bounds and no date is given, and then yields exactly the request, which carries no date; otherwise it reports only rejected fields, each of them |
| Models.ValidateIntended | models.py:15-46 | with `date` typed as a calendar date: validation succeeds iff the four required fields are present and within bounds, and then yields exactly the request; otherwise it reports only rejected required fields, each of them |
| Models.ValidateAcceptsValidRequests | models.py:15-24 | as written, a complete request is accepted iff it meets the four constraints and carries no date, and comes back unchanged |
| Models.IntendedAcceptsValidRequests | models.py:15-21 | with the intended date type, a complete request is accepted iff it meets the four constraints, and comes back unchanged |
| Models.DetailsDoNotAffectValidation | models.py:23-46 | with the intended date type, the optional fields, the sub-scores included, never decide acceptance |
| Models.OnlyTheDateDetailMatters | models.py:23-46 | as written, a request with other details is accepted iff the intended validation accepts it and its date is absent |
| Models.DatedRequestRejected | models.py:24 | as written, any request carrying a date is rejected, with the date named |
| Models.DatedExampleRejected | models.py:24 | the request with title "A", description "B", cost 10, return 20 and date 2024-05-01 passes the intended validation and fails the written one |
| Models.CostAboveHundredRejected | models.py:20 | a cost of 150 is rejected with the upper bound 100 named in the error |
| Api.RowTime | main.py:83 | the stored time is the request's time unless it is absent or empty, then the clock's HH:MM |
| Api.BuildRow | main.py:81-104 | the row reads back as the request with only its date and time replaced; a given date is kept and a missing one is today; the time is the request's unless absent or empty; the score is the one computed |
| Api.StoredRowRoundTrip | main.py:81-104 | the inserted row reads back as the request it was built from: `title` is stored as `break`, `description` as `full_commentary`, `cost` and `estimated_return` unchanged, the score as computed; only a defaulted date or time differs, and then it holds the clock's value |
| Api.CreateSession | main.py:65-126 | invalid requests are rejected with their errors before anything is stored; a row is inserted iff the request is valid and the store reachable, carrying the computed score; success iff the insert returned a row, and the response repeats the stored score, the store's id and creation time (or now) and the default message; an empty insert result is the specific 500, any exception the generic one with its message; the inserted row is exactly the one built from the request and its computed score; since validation refuses any date, a dated request stores nothing and gets a 422, and every stored row is dated today |
| Api.IntendedRowKeepsDate | main.py:81 | under the intended validation, a requested date would reach the stored row, and a missing one would be today |
| Api.ById | main.py:158-173 | a lookup succeeds iff rows came back, with the first one; it is a 404 naming the id iff nothing came back; a failure is a 500 carrying the message |
| Api.GetSession | main.py:158-173 | the first returned row, the 404 for an empty result re-raised as is, or the generic 500 |
| Api.DeleteSession | main.py:176-191 | success (no body) iff a row was deleted, a 404 for an empty result, the generic 500 on failure |
| Api.NotFoundDetailIdentifiesSession | main.py:166 | two ids never share a 404 detail |
| Api.NotFoundIsNotServerError | main.py:165-171 | get and delete report the 404 exactly when the store returned no rows, so never for a failure |
| Api.RangeOf | main.py:149 | the requested range starts at `offset` and spans exactly `limit` positions |
| Api.ListFilters | main.py:142-147 | the zone and break filters are added iff given and non-empty (the break one as `%name%`), the score bound iff given; each filter targets its own column (`eq` on `zone`, `ilike` on `break`, `gte` on `total_score`) and there is no other |
| Api.SessionsQuery | main.py:140-149 | the query carries those filters, orders by `total_score` descending, and asks for positions `offset`..`offset + limit - 1` |
| Api.ListSessions | main.py:150-155 | a listing returns the rows with their count, or a 500 with the failure's message |
| Api.Window | main.py:149 | the rows a range selects: how many, and that they are the consecutive rows from `first` on |
| Api.DefaultPageIsFirstFifty | main.py:134-149 | without `limit` and `offset` a listing is the first 50 rows, or all of them when fewer |
| Api.PageSize | main.py:149 | a page holds at most `limit` rows, and exactly `limit` when enough rows follow the offset |
| Api.PagesTile | main.py:149 | two consecutive pages together are the double-size page |
| PyValues.Trunc | superweirdonebud_supabase.py:158 | `int()` on a float truncates toward zero on both sides of zero |
| PyValues.TruncTowardZero | superweirdonebud_supabase.py:158 | 2.7 becomes 2, -2.7 becomes -2 and -0.5 becomes 0: the fraction is cut off, not rounded |
| PyValues.ToFloat | superweirdonebud_supabase.py:155-157 | `float()` turns integers and floats into that float and raises on `None`, dates and times |
| PyValues.ToInt | superweirdonebud_supabase.py:158 | `int()` keeps integers, truncates floats and raises on `None`, dates and times |
| PyValues.ToStr | superweirdonebud_supabase.py:151-152 | `str(None)` is "None", a string is itself, a date its ISO text, a time its clock text, an integer its decimal text and a float its printed form |
| PyText.Strip | superweirdonebud_supabase.py:404 | the stripped text has no whitespace at either end and is no longer than the input |
| PyText.StripCharacterized | superweirdonebud_supabase.py:404 | stripping removes exactly the leading and trailing whitespace around a trimmed middle |
| PyText.NatToStringRoundTrip | main.py:166 | reading the decimal text of a natural number back gives the number |
| PyText.IntToStringInjective | main.py:166 | different integers have different decimal texts |
| Columns.ColumnName | superweirdonebud_supabase.py:106-131 | each storage name is non-empty, starts with a lower-case letter and is neither `user_id` nor `publicity` |
| Columns.Label | superweirdonebud_supabase.py:106-131 | each display label is non-empty, starts with a capital and is neither `user_id` nor `publicity` |
| Columns.WriteRule | superweirdonebud_supabase.py:151-176 | every column is read from its own display label; exactly the date and time are converted to text, and exactly the swell direction keeps a falsy value as null |
| Columns.InsertOnlyKeysAreNotColumns | superweirdonebud_supabase.py:148-150 | the keys only an insert writes are the owner and the visibility |
| Columns.LabelsAreNotColumnNames | superweirdonebud_supabase.py:106-131 | no display label is the storage name of any column |
| Columns.AllColumnsComplete | superweirdonebud_supabase.py:105-132 | the 26 columns of `column_mapping` are all the columns there are |
| Columns.LabelsDistinct | superweirdonebud_supabase.py:105-132 | no two columns share a display label, so the rename is reversible |
| Columns.ColumnNamesDistinct | superweirdonebud_supabase.py:105-132 | no two columns share a storage name |
| Columns.KeyNamesDistinct | superweirdonebud_supabase.py:148-177 | no two keys of a written record share a storage name |
| Columns.DisplayNamesDistinct | superweirdonebud_supabase.py:105-133 | no two keys share a name after the rename, so loading loses no value |
| Columns.WriteRulesFollowMapping | superweirdonebud_supabase.py:105-132 | each column is written from exactly the label `column_mapping` displays it under |
| Columns.ReservedNamesAreNotColumns | superweirdonebud_supabase.py:148-150 | `user_id` and `publicity` are neither a column's name nor its label |
| FieldMapping.ConvertValue | superweirdonebud_supabase.py:151-176 | a value is stored as is, as its `str`, as `float()` or `int()` of it, or (swell direction) as null exactly when it is falsy and as its `float()` otherwise |
| FieldMapping.Convert | superweirdonebud_supabase.py:151-176 | a column converts its label's value; a missing label converts 0 for the numeric columns (stored as 0.0 or 0) and `None` otherwise |
| FieldMapping.ConvertFields | superweirdonebud_supabase.py:195-222 | the shared conversion writes exactly the 26 columns, each converted by its rule |
| FieldMapping.SaveRow | superweirdonebud_supabase.py:148-177 | an insert writes every key: the current user as `user_id`, the given `publicity` or "Private", and each column converted by its rule |
| FieldMapping.SaveRecord | superweirdonebud_supabase.py:140-186 | without a user nothing is sent and the result is false; the insert is sent iff there is a user and every conversion succeeds; the result is true iff it was sent and rows came back |
| FieldMapping.UpdateRecord | superweirdonebud_supabase.py:188-229 | the same conditions for an update, which is scoped to the record and its owner and sends the converted columns only |
| FieldMapping.DeleteRecord | superweirdonebud_supabase.py:231-241 | with a user, the owner-scoped delete is sent and true is returned iff the call did not fail, whether or not a row matched |
| FieldMapping.DeleteOfNothingSucceedsOnlyOnTheDashboard | superweirdonebud_supabase.py:231-241 | deleting a record that is not there reports success on the dashboard, while the API answers 404 for the same empty result |
| FieldMapping.DeletesDisagreeOnlyOnNothingDeleted | superweirdonebud_supabase.py:231-241 | on any reply, the dashboard's delete reports success while the API answers an error exactly when nothing was deleted; otherwise the dashboard succeeds exactly when the API does |
| FieldMapping.StoredNames | superweirdonebud_supabase.py:148-177 | the names a row is written under are exactly its keys' storage names |
| FieldMapping.Rename | superweirdonebud_supabase.py:133 | every loaded key reappears under its display name with its value, and nothing else appears |
| FieldMapping.RenameWithoutOwner | superweirdonebud_supabase.py:133 | a row without an owner has no `user_id` after the rename |
| FieldMapping.RenameKeepsColumns | superweirdonebud_supabase.py:105-133 | each column appears under its label with its value after the rename, and `publicity` keeps its name |
| FieldMapping.LoadUserRecords | superweirdonebud_supabase.py:89-138 | without a user nothing is queried and nothing is returned; otherwise the query is owner-scoped, filtered by visibility only when one is given and non-empty, ordered by `date` descending, and the records come back renamed one for one; a failure returns nothing |
| FieldMapping.StoredNamesOfFullRow | superweirdonebud_supabase.py:148-177 | a full row is written under `user_id`, `publicity` and the column names, and nothing else |
| FieldMapping.SavedColumns | superweirdonebud_supabase.py:105-177 | an insert writes exactly `user_id`, `publicity` and the storage names of `column_mapping`, and those are distinct |
| FieldMapping.RenameFullRow | superweirdonebud_supabase.py:105-133 | a loaded full row holds exactly the labels, `user_id` and `publicity`, with each column's value under its label |
| FieldMapping.SaveThenLoad | superweirdonebud_supabase.py:105-177 | saving then loading gives back exactly the display labels plus `user_id` and `publicity`; under each label is what was saved under that label, converted, so labels written as they are come back unchanged; owner and visibility are those written |
| FieldMapping.MissingNumbersStoredAsZero | superweirdonebud_supabase.py:155-174 | a numeric column whose label is missing is stored as 0.0 or 0 according to its conversion |
| FieldMapping.SwellDirectionNullWhenFalsy | superweirdonebud_supabase.py:159 | swell direction is stored as null iff its input is absent or falsy, so a direction of 0 is stored as null |
| FieldMapping.SwellPeriodTruncated | superweirdonebud_supabase.py:158 | a swell period of 2.7 is stored as the integer 2, so the period is a truncated whole number |
| FieldMapping.UpdateKeepsOwnerAndVisibility | superweirdonebud_supabase.py:195-224 | an update writes every column with the value an insert would, but neither owner nor visibility, and is scoped to the current user |
| SignUp.CheckSignUp | superweirdonebud_supabase.py:319-331 | sign-up proceeds iff the email is filled in, the passwords match and the password has at least 6 characters; each earlier failing check wins over later ones |
| SignUp.SignUpCheck.Warning | superweirdonebud_supabase.py:326-331 | a warning is shown iff sign-up does not proceed |
| SignUp.MismatchReportedBeforeLength | superweirdonebud_supabase.py:321-329 | a differing confirmation is reported even when the password is also too short |
| SignUp.WarningsIdentifyTheCheck | superweirdonebud_supabase.py:326-331 | each failing check has its own warning |
| SignUp.CheckSignIn | superweirdonebud_supabase.py:304-310 | sign-in proceeds iff both fields are filled in, otherwise the one warning |
| SignUp.SignInAgreesWithSignUp | superweirdonebud_supabase.py:304-322 | sign-in proceeds exactly when sign-up passes its first check, whatever the confirmation, and their warnings differ in wording |
| CreateView.JoinComments | superweirdonebud_supabase.py:404 | the commentary has no whitespace at its ends and is at most the comments plus two spaces long |
| CreateView.CommentaryJoinsComments | superweirdonebud_supabase.py:404 | trimmed non-empty comments are joined by exactly one space each |
| CreateView.EmptyCommentsGiveEmptyCommentary | superweirdonebud_supabase.py:404 | three empty boxes give an empty commentary |
| CreateView.EmptyWindCommentLeavesDoubleSpace | superweirdonebud_supabase.py:404 | an empty middle box leaves two spaces: only the ends are stripped |
| CreateView.EmptySwellCommentDropsLeadingSpace | superweirdonebud_supabase.py:404 | an empty first box leaves no leading space |
| CreateView.ColumnEntry | superweirdonebud_supabase.py:406-434 | the form puts a value under every column: a number under every column stored as a number, and the picked date or time under the two columns stored as text |
| CreateView.FormEntry | superweirdonebud_supabase.py:406-434 | the form leaves only the owner empty, puts its chosen visibility under `publicity`, a number under every column stored as a number, and the picked date or time under the two columns stored as text |
| CreateView.FormCommentEntries | superweirdonebud_supabase.py:420-432 | the swell, wind and tide comments are put under their own columns as typed |
| CreateView.FormCommentaryIsJoined | superweirdonebud_supabase.py:404 | the form's commentary is its three comments joined and stripped |
| CreateView.FormRow | superweirdonebud_supabase.py:406-434 | the form fills in every column and the visibility, never the owner |
| CreateView.FormRecord | superweirdonebud_supabase.py:406-434 | the form's record holds its value under every column's label and its visibility under `publicity`, and no `user_id` |
| CreateView.RenamedFormRow | superweirdonebud_supabase.py:406-434 | the form's values keep their columns' labels |
| CreateView.FormNumbersAreNumbers | superweirdonebud_supabase.py:413-431 | every column stored as a number gets a number from the form |
| CreateView.FormValuesConvert | superweirdonebud_supabase.py:406-436 | a record holding the form's values converts without raising, whatever the parsers do |
| CreateView.FormRecordConvertible | superweirdonebud_supabase.py:406-436 | every record the form builds converts |
| CreateView.FormColumnConverts | superweirdonebud_supabase.py:406-436 | each stored column is the conversion of the form's own value for it |
| CreateView.StoredTime | superweirdonebud_supabase.py:152 | the form's picked time is stored as its text |
| CreateView.StoredDate | superweirdonebud_supabase.py:151 | the form's picked date is stored as its ISO text |
| CreateView.StoredBreak | superweirdonebud_supabase.py:153 | the form's break name is stored as typed |
| CreateView.StoredZone | superweirdonebud_supabase.py:154 | the form's zone is stored as typed |
| CreateView.StoredScore | superweirdonebud_supabase.py:155 | the form's total score is stored as that float |
| CreateView.StoredSwellDirection | superweirdonebud_supabase.py:159 | the form's swell direction 0 is stored as null |
| CreateView.StoredCommentary | superweirdonebud_supabase.py:176 | the stored commentary is the three comments joined and stripped |
| CreateView.StoredFixedFloats | superweirdonebud_supabase.py:413-431 | the swell sizes, the tide reading and the final tide score the form fills in as 0 are stored as the float 0.0 |
| CreateView.StoredFixedSwellInts | superweirdonebud_supabase.py:415-419 | the swell period and the swell scores the form fills in as 0 are stored as the integer 0 |
| CreateView.StoredFixedWindTideInts | superweirdonebud_supabase.py:422-430 | the wind speed and the wind and tide scores the form fills in as 0 are stored as the integer 0 |
| CreateView.StoredFixedTexts | superweirdonebud_supabase.py:417-429 | the fixed answers are stored unchanged: "Yes" for the three suitability columns, "N" for the wind bearing, "High" for the tide direction |
| CreateView.StoredZeros | superweirdonebud_supabase.py:155-174 | every other number the form fills in as 0 is stored as 0 or 0.0 |
| CreateView.FormRecordSaved | superweirdonebud_supabase.py:406-436 | the insert for a submitted form is its converted record, owned by the user and with the chosen visibility |
| CreateView.Step | superweirdonebud_supabase.py:355-441 | a record is saved iff the form is submitted with a break name; the list's Create button opens the form and nothing else does; Back returns to the list; an empty break name stays on the form with its error; after a save, the list comes back, with the success message, iff the store returned rows; a failed call shows its message, and an empty result stays on the form with no message |
| CreateView.Run | superweirdonebud_supabase.py:355-441 | a run of interactions saves at most one form per interaction |
| CreateView.StepAgreesWithSaveRecord | superweirdonebud_supabase.py:402-439 | a submission leaves the form exactly when `save_record` of its record returns true, and what it sends is the user's converted form |
| CreateView.RunOnlySavesNamedBreaks | superweirdonebud_supabase.py:402-441 | across any run of interactions, every saved form has a break name |
| CreateView.NothingSavedFromTheList | superweirdonebud_supabase.py:355-373 | the session opens on the list, where no interaction saves a record or shows a message |
| CreateView.LeavingTheForm | superweirdonebud_supabase.py:378-439 | the form is left only by Back or by a save the store confirms |
| CreateView.AvailableColumns | superweirdonebud_supabase.py:369-370 | the shown columns are exactly the wanted ones the table has, with the first wanted one first when present |
| CreateView.ListScreen | superweirdonebud_supabase.py:365-373 | the list shows nothing iff the table is empty, and otherwise exactly the display columns the records have, in the order `AvailableColumns` keeps |
| CreateView.AvailableColumnsKeepOrder | superweirdonebud_supabase.py:369-370 | the shown columns keep the wanted order: each is the wanted column at a position, and those positions increase |
| CreateView.AllAvailable | superweirdonebud_supabase.py:370 | when the table has every wanted column, all are shown in the wanted order |
| CreateView.ShowsAllColumns | superweirdonebud_supabase.py:365-371 | a table with a record holding every label shows Date, Break, Zone and TOTAL SCORE in that order |
| CreateView.SavedRecordsShowAllColumns | superweirdonebud_supabase.py:365-371 | once any record the dashboard saved is loaded, the list shows all four display columns in order |

## Notes on the code

These points record behaviour of the code a reader might not expect:

- **Swell direction.** The dashboard stores swell direction as null not only when it is absent but whenever it is falsy, so a direction of 0 is stored as null. The form always submits 0, so every session saved from the form has a null swell direction (`FieldMapping.SwellDirectionNullWhenFalsy`, `CreateView.StoredSwellDirection`).
- **Absent numbers.** Absent numeric fields default to 0 only in the dashboard's conversion. The API stores absent optional fields as null (`Api.SessionRow` keeps them as `Option`).
- **Time default.** The API's time defaults to "now" when it is absent and also when it is the empty string, since the code uses `or` (`Api.RowTime`).
- **Filters.** The zone and break filters of the listing are skipped for an empty string as well as for an absent one.
- **`delete_record`.** The dashboard's `delete_record` returns true whenever the call does not raise, even if no row matched. The API's delete answers 404 when no row came back.
- **Validation errors.** A create request that fails validation is answered by the framework with a 422 before the handler runs, not with a 500.

## Findings

| source | as written | input that shows it | evidently intended | confidence | as-written member | corrected member |
|---|---|---|---|---|---|---|
| models.py:24 | `date: Optional[date] = None` binds the class attribute `date` to `None` before the annotation is evaluated, so the field's type is `Optional[None]`: any non-null date is rejected with a 422, and every stored row gets today's date | `{"title":"A","description":"B","cost":10,"estimated_return":20,"date":"2024-05-01"}` | the field accepts a calendar date, which `create_session` stores | high (follows from Python's evaluation order for annotated class attributes; not executed) | Models.Validate, Models.DatedExampleRejected | Models.ValidateIntended, Models.IntendedAcceptsValidRequests |

## Left out

- Supabase I/O (`create_client`, `insert`/`update`/`delete`/`select`, the `eq`/`ilike`/`gte`/`order`/`range` builders): the model states what the dashboard's calls, the create call and the listing send, and reacts to every kind of reply; the id-scoped `select` and `delete` of `get_session` and `delete_session` are not represented, only their replies, but the store's filtering, ordering by `total_score` or `date`, and row selection are not modelled; `Api.Window` models only what a row range selects from an already ordered result.
- Authentication calls (`sign_in`, `sign_up`, `sign_out`) and the session state that holds the user: the current user is an `Option` parameter, and the identity service's answers are not modelled.
- `backend/db.py`, `health.py`, the root and health routes, CORS, uvicorn start-up and the dashboard's CSS: configuration and constant responses.
- Python's `round(x, 1)`: a parameter `rnd`, so the tie-breaking rule at .x5 is not fixed by the model; floats are modelled as exact reals.
- Text parsing inside `float()`/`int()` and the printing of floats by `str()`: a `Parsers` parameter.
- The current date and time: a `Clock` parameter. Date and time objects are modelled by their text (`str(date)` is its ISO form, `str(time)` its HH:MM:SS form).
- Pydantic's input coercion (for example, numeric strings accepted for floats) and its exact error messages: the model takes the typed request and reports one structured error per rejected field.
- pandas: a loaded table is a sequence of dictionaries. The `empty` test is modelled as "no record has any column".
- Streamlit rendering and `st.rerun`: each rerun is one `CreateView.Step`; the widgets' values arrive as a `Form`, and the success toast on sign-in and sign-up is not modelled.
- The Browsing screen's own `load_user_records` call is modelled separately (`FieldMapping.LoadUserRecords`, `CreateView.ListScreen`), not inside `CreateView.Step`.
- CreateView.JoinComments: its contract states only that the result is trimmed and bounded in length; the exact joins are stated by `CreateView.CommentaryJoinsComments` and the three lemmas after it.
- CreateView.Run: its contract bounds the number of saved forms; which forms are saved is stated by `CreateView.RunOnlySavesNamedBreaks`.
- FieldMapping.SaveThenLoad: a loaded row is modelled as holding only the keys an insert writes; the `id` and `created_at` columns the store adds, which `select('*')` returns and the rename keeps, are not represented.
- Api.CreateSession: the store's `created_at` is either absent or text; a `created_at` that is present but null, which would make building the response fail with the generic 500, is not represented. Nor is a returned row without an `id`, which would likewise raise and give the generic 500: `InsertedRecord` always carries one.
- Api.CreateSession follows the validation as written; the intended behaviour for a dated request is stated by `Api.IntendedRowKeepsDate`.
- Api.Window: assumes the store returns positions `first`..`last` of its ordered result, clipped to the rows that exist; a negative `offset` or `limit` is passed to the store unchanged and its behaviour there is not modelled.

=== FILE: api.dfy ===
/**
 * The request handlers of the API (main.py): creating a session, listing,
 * fetching and deleting sessions, with their error outcomes.
 */
module Api {
  import opened Wrappers
  import opened Models
  import opened Backend
  import Scoring
  import PyText

  /** The readings of the clock a handler takes when a field is left to default to "now". */
  datatype Clock = Clock(
    today: string,        // the current date in ISO form
    hourMinute: string,   // the current time as HH:MM
    isoNow: string)       // the current timestamp in ISO form

  /** The outcome of a request that did not succeed. */
  datatype ApiError =
    | Unprocessable(errors: seq<FieldError>)   // validation rejected the body (HTTP 422)
    | HttpError(status: int, detail: string)

  /** The row `create_session` hands to the store's insert. */
  datatype SessionRow = SessionRow(
    date: string,
    time: string,
    breakName: string,
    zone: Option<string>,
    totalScore: real,
    surflinePrimarySwellSize: Option<real>,
    seabreezeSwellSize: Option<real>,
    swellPeriod: Option<real>,
    swellDirection: Option<real>,
    swellScore: Option<real>,
    swellComments: Option<string>,
    windBearing: Option<string>,
    windSpeed: Option<real>,
    windScore: Option<real>,
    windComments: Option<string>,
    tideReading: Option<real>,
    tideDirection: Option<string>,
    tideScore: Option<real>,
    tideComments: Option<string>,
    fullCommentary: string,
    cost: real,
    estimatedReturn: real)

  /** What the store returns for an inserted row: its assigned id and, possibly, its creation time. */
  datatype InsertedRecord = InsertedRecord(id: int, createdAt: Option<string>)

  /** Everything a create call does: the row it inserted (if it got that far) and its answer. */
  datatype CreateOutcome = CreateOutcome(inserted: Option<SessionRow>, response: Result<SurfSessionResponse, ApiError>)

  /** A failure reported as a generic server error carrying the underlying message. */
  function ServerError(message: string): ApiError {
    HttpError(500, "Error: " + message)
  }

  const CreateFailedDetail: string := "Failed to create session"

  /** The 404 detail for a missing session. */
  function NotFoundDetail(id: int): string {
    "Session " + PyText.IntToString(id) + " not found"
  }

  /** The time a row is stored with: the request's time unless it is absent or empty. */
  function RowTime(requested: Option<string>, clock: Clock): (t: string)
    ensures requested.Some? && requested.value != "" ==> t == requested.value
    ensures requested == None || requested == Some("") ==> t == clock.hourMinute
  {
    if requested.Some? && requested.value != "" then requested.value else clock.hourMinute
  }

  /** The storage row for a validated request and its computed score. */
  function BuildRow(req: SurfSessionCreate, total: real, clock: Clock): (row: SessionRow)
    // Every request field lands in its column; only a missing date or time is filled from the clock.
    ensures RequestOfRow(row) == req.(details := req.details.(date := Some(row.date), time := Some(row.time)))
    ensures req.details.date.Some? ==> row.date == req.details.date.value
    ensures req.details.date == None ==> row.date == clock.today
    ensures row.time == RowTime(req.details.time, clock)
    ensures row.totalScore == total
  {
    var d := req.details;
    SessionRow(
      d.date.GetOr(clock.today), RowTime(d.time, clock), req.title, d.zone, total,
      d.swellSizeSurfline, d.swellSizeSeabreeze, d.swellPeriod, d.swellDirection, d.swellScore, d.swellComments,
      d.windBearing, d.windSpeed, d.windScore, d.windComments,
      d.tideReading, d.tideDirection, d.tideScore, d.tideComments,
      req.description, req.cost, req.estimatedReturn)
  }

  /** Reads a stored row back as the request that produced it. */
  function RequestOfRow(row: SessionRow): SurfSessionCreate {
    SurfSessionCreate(
      row.breakName, row.fullCommentary, row.cost, row.estimatedReturn,
      SessionDetails(
        Some(row.date), Some(row.time), row.zone,
        row.surflinePrimarySwellSize, row.seabreezeSwellSize, row.swellPeriod, row.swellDirection, row.swellScore,
        row.swellComments, row.windBearing, row.windSpeed, row.windScore, row.windComments,
        row.tideReading, row.tideDirection, row.tideScore, row.tideComments))
  }

  /**
   * A stored row gives back the request it was built from, except that the
   * date and time now hold the values the clock supplied for them.
   */
  lemma StoredRowRoundTrip(req: SurfSessionCreate, total: real, clock: Clock)
    ensures var row := BuildRow(req, total, clock);
      && RequestOfRow(row) == req.(details := req.details.(date := Some(row.date), time := Some(row.time)))
      && row.breakName == req.title
      && row.fullCommentary == req.description
      && row.cost == req.cost && row.estimatedReturn == req.estimatedReturn
      && row.totalScore == total
      && row.date == (if req.details.date.Some? then req.details.date.value else clock.today)
    ensures req.details.date.Some? && req.details.time.Some? && req.details.time.value != "" ==>
      RequestOfRow(BuildRow(req, total, clock)) == req
  {
  }

  /**
   * The create endpoint: validation, scoring, the insert and the response.
   * `rnd` is Python's `round(., 1)`, `reply` is what the insert returned.
   */
  function CreateSession(rnd: real -> real, payload: Payload, clock: Clock, reply: Reply<InsertedRecord>): (r: CreateOutcome)
    // Invalid requests are rejected before anything is stored.
    ensures Validate(payload).Failure? ==>
      r == CreateOutcome(None, Failure(Unprocessable(Validate(payload).error)))
    // A row is inserted exactly when the request is valid and the store is reachable.
    ensures r.inserted.Some? <==> Validate(payload).Success? && !reply.NoClient?
    ensures r.inserted.Some? ==>
      var req := Validate(payload).value;
      var row := r.inserted.value;
      && row.totalScore == Scoring.CalculateScore(rnd, req.cost, req.estimatedReturn,
                                                  req.details.swellScore, req.details.windScore, req.details.tideScore)
      && row.breakName == req.title
      && row.fullCommentary == req.description
      && row.cost == req.cost && row.estimatedReturn == req.estimatedReturn
    // Success needs a valid request and a returned row; the response repeats the stored score.
    ensures r.response.Success? <==> Validate(payload).Success? && reply.HasRows()
    ensures r.response.Success? ==>
      var req := Validate(payload).value;
      var resp := r.response.value;
      && r.inserted.Some?
      && resp.totalScore == r.inserted.value.totalScore
      && resp.id == reply.data[0].id
      && resp.title == req.title && resp.description == req.description && resp.zone == req.details.zone
      && resp.createdAt == reply.data[0].createdAt.GetOr(clock.isoNow)
      && resp.message == DefaultMessage
    // An empty insert result keeps its own 500 detail; exceptions become the generic 500.
    ensures Validate(payload).Success? && reply == Rows([]) ==>
      r.response == Failure(HttpError(500, CreateFailedDetail))
    ensures Validate(payload).Success? && reply.IsError() ==>
      r.response == Failure(ServerError(reply.message))
    // As written, validation refuses any date, so a dated request stores nothing and every stored row is dated today.
    ensures payload.details.date.Some? ==> r.inserted == None && r.response.Failure? && r.response.error.Unprocessable?
    ensures r.inserted.Some? ==> r.inserted.value.date == clock.today
    // The inserted row is the request's row, with the computed score.
    ensures r.inserted.Some? ==>
      var req := Validate(payload).value;
      r.inserted.value == BuildRow(req, Scoring.CalculateScore(rnd, req.cost, req.estimatedReturn,
                                                               req.details.swellScore, req.details.windScore, req.details.tideScore), clock)
  {
    match Validate(payload)
    case Failure(errors) => CreateOutcome(None, Failure(Unprocessable(errors)))
    case Success(req) =>
      if reply.NoClient? then CreateOutcome(None, Failure(ServerError(reply.message)))
      else
        var d := req.details;
        var total := Scoring.CalculateScore(rnd, req.cost, req.estimatedReturn, d.swellScore, d.windScore, d.tideScore);
        var row := BuildRow(req, total, clock);
        match reply
        case Raised(message) => CreateOutcome(Some(row), Failure(ServerError(message)))
        case Rows(data) =>
          if |data| == 0 then CreateOutcome(Some(row), Failure(HttpError(500, CreateFailedDetail)))
          else
            var record := data[0];
            CreateOutcome(Some(row), Success(SurfSessionResponse(
              record.id, req.title, req.description, total, d.zone,
              record.createdAt.GetOr(clock.isoNow), DefaultMessage)))
  }

  /**
   * Under the intended validation, a dated request would be stored with the
   * date it names rather than the clock's.
   */
  lemma IntendedRowKeepsDate(p: Payload, rnd: real -> real, clock: Clock)
    requires ValidateIntended(p).Success?
    ensures var req := ValidateIntended(p).value;
      var d := req.details;
      var row := BuildRow(req, Scoring.CalculateScore(rnd, req.cost, req.estimatedReturn, d.swellScore, d.windScore, d.tideScore), clock);
      row.date == p.details.date.GetOr(clock.today) && row.breakName == p.title.value
  {
  }

  /**
   * The shared outcome of a lookup by id: the first returned row, a 404 when
   * nothing came back, a 500 with the message when the call failed.
   */
  function ById<T>(id: int, reply: Reply<T>): (r: Result<T, ApiError>)
    ensures r.Success? <==> reply.HasRows()
    ensures r.Success? ==> r.value == reply.data[0]
    ensures r.Failure? && r.error.HttpError? && r.error.status == 404 <==> reply == Rows([])
    ensures reply == Rows([]) ==> r.error.detail == NotFoundDetail(id)
    ensures reply.IsError() ==> r == Failure(ServerError(reply.message))
  {
    match reply
    case Rows(data) =>
      if |data| == 0 then Failure(HttpError(404, NotFoundDetail(id))) else Success(data[0])
    case _ => Failure(ServerError(reply.message))
  }

  /** `GET /surf-sessions/{id}`: the row, or a 404 that is passed on unchanged rather than turned into a 500. */
  function GetSession<T>(id: int, reply: Reply<T>): (r: Result<T, ApiError>)
    ensures reply.HasRows() ==> r == Success(reply.data[0])
    ensures reply == Rows([]) ==> r == Failure(HttpError(404, NotFoundDetail(id)))
    ensures reply.IsError() ==> r == Failure(ServerError(reply.message))
  {
    ById(id, reply)
  }

  /** `DELETE /surf-sessions/{id}`: nothing on success (204), a 404 when no row was deleted, a 500 on failure. */
  function DeleteSession<T>(id: int, reply: Reply<T>): (r: Result<(), ApiError>)
    ensures r.Success? <==> reply.HasRows()
    ensures reply == Rows([]) ==> r == Failure(HttpError(404, NotFoundDetail(id)))
    ensures reply.IsError() ==> r == Failure(ServerError(reply.message))
  {
    match ById(id, reply)
    case Success(_) => Success(())
    case Failure(e) => Failure(e)
  }

  /** The not-found outcome names the session: two ids never share a 404 detail. */
  lemma NotFoundDetailIdentifiesSession(i: int, j: int)
    requires NotFoundDetail(i) == NotFoundDetail(j)
    ensures i == j
  {
    var si := PyText.IntToString(i);
    var sj := PyText.IntToString(j);
    var prefix := "Session ";
    var suffix := " not found";
    assert |si| == |sj|;
    assert si == NotFoundDetail(i)[|prefix|..|prefix| + |si|];
    assert sj == NotFoundDetail(j)[|prefix|..|prefix| + |sj|];
    PyText.IntToStringInjective(i, j);
  }

  /** The not-found outcome is never the generic server error. */
  lemma NotFoundIsNotServerError<T>(id: int, reply: Reply<T>)
    ensures GetSession(id, reply) == Failure(HttpError(404, NotFoundDetail(id))) <==> reply == Rows([])
    ensures DeleteSession(id, reply) == Failure(HttpError(404, NotFoundDetail(id))) <==> reply == Rows([])
  {
  }

  // ---------------------------------------------------------------- listing

  const DefaultLimit: int := 50
  const DefaultOffset: int := 0

  /** One condition handed to the store's query builder. */
  datatype Filter =
    | Equals(column: string, text: string)          // `eq`
    | InsensitiveLike(column: string, pattern: string)  // `ilike`
    | AtLeast(column: string, bound: real)           // `gte`

  /** The query `get_sessions` builds: filters, then descending order on the score, then an inclusive row range. */
  datatype Query = Query(filters: seq<Filter>, orderColumn: string, descending: bool, first: int, last: int)

  /** The listing response: the rows and how many there are. */
  datatype SessionList<T> = SessionList(sessions: seq<T>, count: int)

  /** The inclusive row positions `offset` to `offset + limit - 1`. */
  function RangeOf(limit: int, offset: int): (bounds: (int, int))
    ensures bounds.0 == offset
    ensures bounds.1 - bounds.0 + 1 == limit
  {
    (offset, offset + limit - 1)
  }

  /** The filter list: zone and break only when given and non-empty, score whenever given. */
  function ListFilters(zone: Option<string>, breakName: Option<string>, minScore: Option<real>): (fs: seq<Filter>)
    ensures forall z :: Equals("zone", z) in fs <==> zone == Some(z) && z != ""
    ensures forall p :: InsensitiveLike("break", p) in fs <==> breakName.Some? && breakName.value != "" && p == "%" + breakName.value + "%"
    ensures forall m :: AtLeast("total_score", m) in fs <==> minScore == Some(m)
    ensures |fs| <= 3
    // Each filter targets the column of its kind.
    ensures forall f :: f in fs ==>
      || (f.Equals? && f.column == "zone")
      || (f.InsensitiveLike? && f.column == "break")
      || (f.AtLeast? && f.column == "total_score")
  {
    (if zone.Some? && zone.value != "" then [Equals("zone", zone.value)] else [])
    + (if breakName.Some? && breakName.value != "" then [InsensitiveLike("break", "%" + breakName.value + "%")] else [])
    + (if minScore.Some? then [AtLeast("total_score", minScore.value)] else [])
  }

  function SessionsQuery(zone: Option<string>, breakName: Option<string>, minScore: Option<real>, limit: int, offset: int): (q: Query)
    ensures q.filters == ListFilters(zone, breakName, minScore)
    ensures q.orderColumn == "total_score" && q.descending
    ensures q.first == offset && q.last - q.first + 1 == limit
  {
    var bounds := RangeOf(limit, offset);
    Query(ListFilters(zone, breakName, minScore), "total_score", true, bounds.0, bounds.1)
  }

  /** `GET /surf-sessions`: the returned rows with their count, or a 500 with the failure's message. */
  function ListSessions<T>(reply: Reply<T>): (r: Result<SessionList<T>, ApiError>)
    ensures r.Success? <==> reply.Rows?
    ensures r.Success? ==> r.value.sessions == reply.data && r.value.count == |reply.data|
    ensures reply.IsError() ==> r == Failure(ServerError(reply.message))
  {
    match reply
    case Rows(data) => Success(SessionList(data, |data|))
    case _ => Failure(ServerError(reply.message))
  }

  function MinInt(a: int, b: int): int { if a <= b then a else b }
  function MaxInt(a: int, b: int): int { if a <= b then b else a }

  /** The rows at positions `first` through `last` inclusive, as far as they exist. */
  function Window<T>(rows: seq<T>, first: nat, last: int): (w: seq<T>)
    ensures |w| == MaxInt(0, MinInt(last + 1, |rows|) - MinInt(first, |rows|))
    ensures forall i :: 0 <= i < |w| ==> w[i] == rows[first + i]
  {
    var lo := MinInt(first, |rows|);
    var hi := MaxInt(lo, MinInt(last + 1, |rows|));
    rows[lo..hi]
  }

  /** Without `limit` and `offset`, a listing is the first fifty rows in score order, or all of them when fewer. */
  lemma DefaultPageIsFirstFifty<T>(rows: seq<T>)
    ensures var b := RangeOf(DefaultLimit, DefaultOffset);
      Window(rows, b.0, b.1) == rows[..MinInt(50, |rows|)]
  {
    var b := RangeOf(DefaultLimit, DefaultOffset);
    var w := Window(rows, b.0, b.1);
    assert |w| == MinInt(50, |rows|);
    assert forall i :: 0 <= i < |w| ==> w[i] == rows[i];
  }

  /** A page never holds more than `limit` rows, and holds exactly that many when enough rows follow the offset. */
  lemma PageSize<T>(rows: seq<T>, limit: nat, offset: nat)
    ensures var b := RangeOf(limit, offset);
      |Window(rows, b.0, b.1)| <= limit
    ensures var b := RangeOf(limit, offset);
      offset + limit <= |rows| ==> |Window(rows, b.0, b.1)| == limit
  {
  }

  /** Consecutive pages fit together: the page after `offset` continues exactly where it ends. */
  lemma PagesTile<T>(rows: seq<T>, limit: nat, offset: nat)
    ensures var b1 := RangeOf(limit, offset);
            var b2 := RangeOf(limit, offset + limit);
            var b := RangeOf(2 * limit, offset);
      Window(rows, b1.0, b1.1) + Window(rows, b2.0, b2.1) == Window(rows, b.0, b.1)
  {
    var b1 := RangeOf(limit, offset);
    var b2 := RangeOf(limit, offset + limit);
    var b := RangeOf(2 * limit, offset);
    var w1 := Window(rows, b1.0, b1.1);
    var w2 := Window(rows, b2.0, b2.1);
    var w := Window(rows, b.0, b.1);
    assert |w1 + w2| == |w|;
    forall i | 0 <= i < |w| ensures (w1 + w2)[i] == w[i] {
      if i < |w1| { } else { assert w2[i - |w1|] == rows[offset + limit + (i - |w1|)]; }
    }
  }
}

=== FILE: backend.dfy ===
/**
 * What the hosted store hands back to a caller. The store itself (its
 * filtering, ordering and storage) is outside the model: every operation
 * that talks to it takes the reply as a parameter.
 */
module Backend {

  datatype Reply<T> =
    | NoClient(message: string)   // the client could not be constructed (configuration missing)
    | Raised(message: string)     // the call raised; `message` is the exception's text
    | Rows(data: seq<T>)          // the call returned these rows (possibly none)
  {
    /** The call returned at least one row: Python's `if result.data:`. */
    predicate HasRows() {
      Rows? && |data| > 0
    }

    predicate IsError() {
      NoClient? || Raised?
    }
  }
}

=== FILE: columns.dfy ===
/**
 * The dashboard's fixed tables (superweirdonebud_supabase.py): each stored
 * column's name and display label (`column_mapping`), and the label and
 * conversion each column is written from (`save_record`, `update_record`).
 */
module Columns {

  /** The 26 columns of a stored record, in `column_mapping` order. */
  datatype Column =
    | SurflinePrimarySwellSize
    | SeabreezeSwell
    | SwellPeriod
    | SwellDirection
    | SuitableSwell
    | SwellScore
    | FinalSwellScore
    | SwellComments
    | WindBearing
    | WindSpeed
    | SuitableWind
    | WindScore
    | WindFinalScore
    | WindComments
    | TideReading
    | TideDirection
    | TideSuitable
    | TideScore
    | TideFinalScore
    | TideComments
    | FullCommentary
    | TotalScore
    | Date
    | Time
    | Break
    | Zone

  const AllColumns: set<Column> := {
    SurflinePrimarySwellSize,
    SeabreezeSwell,
    SwellPeriod,
    SwellDirection,
    SuitableSwell,
    SwellScore,
    FinalSwellScore,
    SwellComments,
    WindBearing,
    WindSpeed,
    SuitableWind,
    WindScore,
    WindFinalScore,
    WindComments,
    TideReading,
    TideDirection,
    TideSuitable,
    TideScore,
    TideFinalScore,
    TideComments,
    FullCommentary,
    TotalScore,
    Date,
    Time,
    Break,
    Zone}

  /**
   * The storage column's name: a key of `column_mapping`. It starts with a
   * lower-case letter, so it is never a label, and it is never one of the
   * two names the writers add themselves.
   */
  function ColumnName(c: Column): (name: string)
    ensures name != "" && 'a' <= name[0] <= 'z'
    ensures name != OwnerName && name != VisibilityName
  {
    match c
    case SurflinePrimarySwellSize => "surfline_primary_swell_size_m"
    case SeabreezeSwell => "seabreeze_swell_m"
    case SwellPeriod => "swell_period_s"
    case SwellDirection => "swell_direction"
    case SuitableSwell => "suitable_swell"
    case SwellScore => "swell_score"
    case FinalSwellScore => "final_swell_score"
    case SwellComments => "swell_comments"
    case WindBearing => "wind_bearing"
    case WindSpeed => "wind_speed_kn"
    case SuitableWind => "suitable_wind"
    case WindScore => "wind_score"
    case WindFinalScore => "wind_final_score"
    case WindComments => "wind_comments"
    case TideReading => "tide_reading_m"
    case TideDirection => "tide_direction"
    case TideSuitable => "tide_suitable"
    case TideScore => "tide_score"
    case TideFinalScore => "tide_final_score"
    case TideComments => "tide_comments"
    case FullCommentary => "full_commentary"
    case TotalScore => "total_score"
    case Date => "date"
    case Time => "time"
    case Break => "break"
    case Zone => "zone"
  }

  /**
   * The column's display label: its value in `column_mapping`. It starts
   * with a capital, so it is never a storage name nor a reserved one.
   */
  function Label(c: Column): (shown: string)
    ensures shown != "" && 'A' <= shown[0] <= 'Z'
    ensures shown != OwnerName && shown != VisibilityName
  {
    match c
    case SurflinePrimarySwellSize => "Surfline Primary Swell Size (m)"
    case SeabreezeSwell => "Seabreeze Swell (m)"
    case SwellPeriod => "Swell Period (s)"
    case SwellDirection => "Swell Direction"
    case SuitableSwell => "Suitable Swell?"
    case SwellScore => "Swell Score"
    case FinalSwellScore => "Final Swell Score"
    case SwellComments => "Swell Comments"
    case WindBearing => "Wind Bearing"
    case WindSpeed => "Wind Speed (kn)"
    case SuitableWind => "Suitable Wind?"
    case WindScore => "Wind Score"
    case WindFinalScore => "Wind Final Score"
    case WindComments => "Wind Comments"
    case TideReading => "Tide Reading (m)"
    case TideDirection => "Tide Direction"
    case TideSuitable => "Tide Suitable?"
    case TideScore => "Tide Score"
    case TideFinalScore => "Tide Final Score"
    case TideComments => "Tide Comments"
    case FullCommentary => "Full Commentary"
    case TotalScore => "TOTAL SCORE"
    case Date => "Date"
    case Time => "Time"
    case Break => "Break"
    case Zone => "Zone"
  }

  /** How a stored value is produced from the value found under its label. */
  datatype Coercion =
    | AsText            // the value's text; a missing label gives the text of None
    | AsIs              // the value unchanged; a missing label gives None
    | AsFloat           // the value as a float; a missing label counts as 0
    | AsInt             // the value as an integer, truncated; a missing label counts as 0
    | FloatWhenTruthy   // null when the value is missing or falsy, otherwise the value as a float

  /** Where a written column's value comes from: the label it is read under and its conversion. */
  datatype FieldRule = FieldRule(source: string, coercion: Coercion)

  /**
   * The rule each column is written with; inserts and updates use the same
   * one. Every column is read from its own display label; only the date and
   * time are turned into text, and only the swell direction keeps a falsy
   * value as null.
   */
  function WriteRule(c: Column): (rule: FieldRule)
    ensures rule.source == Label(c)
    ensures rule.coercion == AsText <==> c == Date || c == Time
    ensures rule.coercion == FloatWhenTruthy <==> c == SwellDirection
  {
    match c
    case Date => FieldRule("Date", AsText)
    case Time => FieldRule("Time", AsText)
    case Break => FieldRule("Break", AsIs)
    case Zone => FieldRule("Zone", AsIs)
    case TotalScore => FieldRule("TOTAL SCORE", AsFloat)
    case SurflinePrimarySwellSize => FieldRule("Surfline Primary Swell Size (m)", AsFloat)
    case SeabreezeSwell => FieldRule("Seabreeze Swell (m)", AsFloat)
    case SwellPeriod => FieldRule("Swell Period (s)", AsInt)
    case SwellDirection => FieldRule("Swell Direction", FloatWhenTruthy)
    case SuitableSwell => FieldRule("Suitable Swell?", AsIs)
    case SwellScore => FieldRule("Swell Score", AsInt)
    case FinalSwellScore => FieldRule("Final Swell Score", AsInt)
    case SwellComments => FieldRule("Swell Comments", AsIs)
    case WindBearing => FieldRule("Wind Bearing", AsIs)
    case WindSpeed => FieldRule("Wind Speed (kn)", AsInt)
    case SuitableWind => FieldRule("Suitable Wind?", AsIs)
    case WindScore => FieldRule("Wind Score", AsInt)
    case WindFinalScore => FieldRule("Wind Final Score", AsInt)
    case WindComments => FieldRule("Wind Comments", AsIs)
    case TideReading => FieldRule("Tide Reading (m)", AsFloat)
    case TideDirection => FieldRule("Tide Direction", AsIs)
    case TideSuitable => FieldRule("Tide Suitable?", AsIs)
    case TideScore => FieldRule("Tide Score", AsInt)
    case TideFinalScore => FieldRule("Tide Final Score", AsFloat)
    case TideComments => FieldRule("Tide Comments", AsIs)
    case FullCommentary => FieldRule("Full Commentary", AsIs)
  }

  /** A key of a written record: the owner, the visibility, or one of the columns. */
  datatype Key = Owner | Visibility | Field(column: Column)

  const OwnerName: string := "user_id"
  const VisibilityName: string := "publicity"
  const DefaultVisibility: string := "Private"

  /** The storage name of a key. */
  function KeyName(k: Key): string {
    match k
    case Owner => OwnerName
    case Visibility => VisibilityName
    case Field(c) => ColumnName(c)
  }

  /** A key's name once a record is loaded: columns show their label, owner and visibility keep their names. */
  function DisplayName(k: Key): string {
    match k
    case Owner => OwnerName
    case Visibility => VisibilityName
    case Field(c) => Label(c)
  }

  /** The keys `update_record` writes: every column and nothing else. */
  const FieldKeys: set<Key> := set c | c in AllColumns :: Field(c)

  /** The keys only `save_record` writes. */
  const InsertOnlyKeys: set<Key> := {Owner, Visibility}

  lemma AllColumnsComplete()
    ensures forall c: Column :: c in AllColumns
    ensures forall k: Key :: k in FieldKeys <==> k.Field?
  {
    forall c: Column ensures c in AllColumns {
      match c
      case SurflinePrimarySwellSize =>
      case SeabreezeSwell =>
      case SwellPeriod =>
      case SwellDirection =>
      case SuitableSwell =>
      case SwellScore =>
      case FinalSwellScore =>
      case SwellComments =>
      case WindBearing =>
      case WindSpeed =>
      case SuitableWind =>
      case WindScore =>
      case WindFinalScore =>
      case WindComments =>
      case TideReading =>
      case TideDirection =>
      case TideSuitable =>
      case TideScore =>
      case TideFinalScore =>
      case TideComments =>
      case FullCommentary =>
      case TotalScore =>
      case Date =>
      case Time =>
      case Break =>
      case Zone =>
    }
    forall k: Key | k.Field? ensures k in FieldKeys {
      assert k.column in AllColumns;
    }
  }

  /** The keys an insert writes beyond those an update writes are the owner and the visibility. */
  lemma InsertOnlyKeysAreNotColumns()
    ensures forall k: Key :: k in InsertOnlyKeys <==> !k.Field?
  {
  }

  /** No two columns share a display label, so renaming a loaded record can be undone. */
  lemma LabelsDistinct()
    ensures forall a, b :: Label(a) == Label(b) ==> a == b
  {
  }

  /** No two columns share a storage name. */
  lemma ColumnNamesDistinct()
    ensures forall a, b :: ColumnName(a) == ColumnName(b) ==> a == b
  {
  }

  /** No two keys share a storage name. */
  lemma KeyNamesDistinct()
    ensures forall a, b :: KeyName(a) == KeyName(b) ==> a == b
  {
    ColumnNamesDistinct();
    ReservedNamesAreNotColumns();
  }

  /** No two keys share a display name, so renaming a loaded record loses nothing. */
  lemma DisplayNamesDistinct()
    ensures forall a, b :: DisplayName(a) == DisplayName(b) ==> a == b
  {
    LabelsDistinct();
    ReservedNamesAreNotColumns();
  }

  /** Labels start with a capital and storage names do not, so no label is any column's storage name. */
  lemma LabelsAreNotColumnNames()
    ensures forall a, b :: Label(a) != ColumnName(b)
  {
    forall a, b ensures Label(a) != ColumnName(b) {
      assert Label(a)[0] != ColumnName(b)[0];
    }
  }

  /** The writers read every column from exactly the label `column_mapping` displays it under. */
  lemma WriteRulesFollowMapping()
    ensures forall c :: WriteRule(c).source == Label(c)
  {
  }

  /** `user_id` and `publicity` are neither a column's storage name nor its label. */
  lemma ReservedNamesAreNotColumns()
    ensures forall c :: ColumnName(c) != OwnerName && ColumnName(c) != VisibilityName
    ensures forall c :: Label(c) != OwnerName && Label(c) != VisibilityName
  {
  }
}

=== FILE: createview.dfy ===
/**
 * The logged-in part of the dashboard (superweirdonebud_supabase.py): a
 * list of the user's sessions and a form that records a new one, with a
 * toggle between the two.
 */
module CreateView {
  import opened Wrappers
  import opened PyValues
  import opened Backend
  import opened Columns
  import opened FieldMapping
  import PyText

  /** Which of the two screens is showing; the session starts on the list. */
  datatype View = Browsing | Creating

  const InitialView: View := Browsing

  /** What the page tells the user after an interaction. */
  datatype Notice =
    | BreakNameRequired
    | SessionSaved
    | SaveFailed(detail: string)
  {
    function Text(): string {
      match this
      case BreakNameRequired => "Please enter a break name"
      case SessionSaved => "✅ Session saved successfully!"
      case SaveFailed(detail) => "Failed to save record: " + detail
    }
  }

  /** What the new-session form holds when it is submitted. */
  datatype Form = Form(
    date: string,          // the date picker's value, in ISO form
    time: string,          // the time picker's value, as `str` prints it
    breakName: string,
    zone: string,
    visibility: string,
    totalScore: real,
    swellComments: string,
    windComments: string,
    tideComments: string)

  /** The three comment boxes joined by single spaces, then stripped. */
  function JoinComments(swell: string, wind: string, tide: string): (r: string)
    ensures PyText.Trimmed(r)
    ensures |r| <= |swell| + |wind| + |tide| + 2
  {
    PyText.Strip(swell + " " + wind + " " + tide)
  }

  /**
   * The value the form puts under each column: always a value, a number
   * under every column stored as a number, and the picked date and time
   * under the two columns stored as text.
   */
  function ColumnEntry(f: Form, c: Column): (v: Value)
    ensures v != Null
    ensures ReadsNumber(WriteRule(c).coercion) ==> v.Int? || v.Float?
    ensures WriteRule(c).coercion == AsText ==> v == DateValue(f.date) || v == TimeValue(f.time)
  {
    match c
    case Date => DateValue(f.date)
    case Time => TimeValue(f.time)
    case Break => Str(f.breakName)
    case Zone => Str(f.zone)
    case TotalScore => Float(f.totalScore)
    case SurflinePrimarySwellSize => Int(0)
    case SeabreezeSwell => Int(0)
    case SwellPeriod => Int(0)
    case SwellDirection => Int(0)
    case SuitableSwell => Str("Yes")
    case SwellScore => Int(0)
    case FinalSwellScore => Int(0)
    case SwellComments => Str(f.swellComments)
    case WindBearing => Str("N")
    case WindSpeed => Int(0)
    case SuitableWind => Str("Yes")
    case WindScore => Int(0)
    case WindFinalScore => Int(0)
    case WindComments => Str(f.windComments)
    case TideReading => Int(0)
    case TideDirection => Str("High")
    case TideSuitable => Str("Yes")
    case TideScore => Int(0)
    case TideFinalScore => Int(0)
    case TideComments => Str(f.tideComments)
    case FullCommentary => Str(JoinComments(f.swellComments, f.windComments, f.tideComments))
  }

  /**
   * The value the form puts under each key of the record it saves: nothing
   * for the owner, the chosen visibility, and each column's entry.
   */
  function FormEntry(f: Form, k: Key): (v: Value)
    ensures v == Null <==> k == Owner
    ensures k.Field? && ReadsNumber(WriteRule(k.column).coercion) ==> v.Int? || v.Float?
    ensures k.Field? && WriteRule(k.column).coercion == AsText ==> v == DateValue(f.date) || v == TimeValue(f.time)
    ensures k == Visibility ==> v == Str(f.visibility)
  {
    match k
    case Owner => Null
    case Visibility => Str(f.visibility)
    case Field(c) => ColumnEntry(f, c)
  }

  /** The keys the form fills in: every column and the visibility. */
  const FormKeys: set<Key> := FieldKeys + {Visibility}

  /** The form's values by key. */
  function FormRow(f: Form): (row: Row)
    ensures forall k :: k in row <==> k != Owner
    ensures forall k :: k in row ==> row[k] == FormEntry(f, k)
  {
    AllColumnsComplete();
    map k | k in FormKeys :: FormEntry(f, k)
  }

  /** `d` holds the form's value under every column's label. */
  predicate HoldsForm(f: Form, d: Dict) {
    forall c :: Label(c) in d && d[Label(c)] == FormEntry(f, Field(c))
  }

  /** The record the form hands to `save_record`: its values under display labels. */
  function FormRecord(f: Form): (d: Dict)
    ensures HoldsForm(f, d)
    ensures VisibilityName in d && d[VisibilityName] == Str(f.visibility)
    ensures OwnerName !in d
  {
    var row := FormRow(f);
    RenamedFormRow(f, row);
    RenameWithoutOwner(row);
    Rename(row)
  }

  /** A row carrying the form's values keeps them under the display labels. */
  lemma RenamedFormRow(f: Form, row: Row)
    requires forall k :: k in row <==> k != Owner
    requires forall k :: k in row ==> row[k] == FormEntry(f, k)
    ensures HoldsForm(f, Rename(row))
    ensures VisibilityName in Rename(row) && Rename(row)[VisibilityName] == Str(f.visibility)
  {
    assert forall c :: Field(c) in row;
    RenameKeepsColumns(row);
  }

  // ------------------------------------------------------------ the toggle

  /** One interaction with the page. */
  datatype Event =
    | CreatePressed
    | BackPressed
    | Submitted(form: Form)
    | Idle

  /** What one interaction leads to: the next screen, the message shown, and the form whose record went to `save_record`, if any. */
  datatype Outcome = Outcome(view: View, message: Option<Notice>, saved: Option<Form>)

  /**
   * One interaction of a logged-in user; `reply` is the store's answer to
   * the insert, should the interaction send one. Buttons only act on the
   * screen that shows them; a submitted form needs a break name, and leaves
   * the form only when the store confirms the insert.
   */
  function Step(view: View, event: Event, reply: Reply<Row>): (r: Outcome)
    ensures r.saved.Some? <==> view == Creating && event.Submitted? && event.form.breakName != ""
    ensures r.saved.Some? ==> r.saved.value == event.form
    ensures view == Browsing ==> (r.view == Creating <==> event == CreatePressed) && r.message == None
    ensures view == Creating && event == BackPressed ==> r == Outcome(Browsing, None, None)
    ensures view == Creating && event.Submitted? && event.form.breakName == "" ==>
      r == Outcome(Creating, Some(BreakNameRequired), None)
    ensures r.saved.Some? ==>
      && (r.view == Browsing <==> reply.HasRows())
      && (r.message == Some(SessionSaved) <==> reply.HasRows())
    ensures r.saved.Some? && reply.IsError() ==> r.message == Some(SaveFailed(reply.message))
    ensures r.saved.Some? && reply == Rows([]) ==> r.view == Creating && r.message == None
    ensures view == Creating && (event == Idle || event == CreatePressed) ==> r == Outcome(Creating, None, None)
  {
    match view
    case Browsing =>
      if event == CreatePressed then Outcome(Creating, None, None) else Outcome(Browsing, None, None)
    case Creating =>
      match event
      case BackPressed => Outcome(Browsing, None, None)
      case Submitted(f) =>
        if f.breakName == "" then Outcome(Creating, Some(BreakNameRequired), None)
        else if reply.HasRows() then Outcome(Browsing, Some(SessionSaved), Some(f))
        else
          var message := match reply
            case Raised(m) => Some(SaveFailed(m))
            case NoClient(m) => Some(SaveFailed(m))
            case Rows(_) => None;
          Outcome(Creating, message, Some(f))
      case _ => Outcome(Creating, None, None)
  }

  /** Runs a sequence of interactions, each paired with the store's reply to any insert it sends; gives the last screen and the forms saved. */
  function Run(view: View, events: seq<(Event, Reply<Row>)>): (r: (View, seq<Form>))
    ensures |r.1| <= |events|
    decreases |events|
  {
    if events == [] then (view, [])
    else
      var o := Step(view, events[0].0, events[0].1);
      var rest := Run(o.view, events[1..]);
      (rest.0, (if o.saved.Some? then [o.saved.value] else []) + rest.1)
  }

  // ------------------------------------------------------------ properties

  /** A conversion that reads a number. */
  predicate ReadsNumber(c: Coercion) {
    c == AsFloat || c == AsInt || c == FloatWhenTruthy
  }

  /** The form supplies a number, never text, for every column stored as a number. */
  lemma FormNumbersAreNumbers(f: Form)
    ensures forall c :: ReadsNumber(WriteRule(c).coercion) ==>
      FormEntry(f, Field(c)).Int? || FormEntry(f, Field(c)).Float?
  {
  }

  /** Any record holding the form's values converts without raising, whatever the parsers do. */
  lemma FormValuesConvert(p: Parsers, f: Form, d: Dict)
    requires HoldsForm(f, d)
    ensures Convertible(p, d)
  {
    FormNumbersAreNumbers(f);
    WriteRulesFollowMapping();
    forall c: Column ensures Convert(p, WriteRule(c), d).Some? {
      var v := Get(d, WriteRule(c).source, Null);
      assert v == FormEntry(f, Field(c));
      assert Get(d, WriteRule(c).source, Int(0)) == v;
      assert ReadsNumber(WriteRule(c).coercion) ==> v.Int? || v.Float?;
    }
  }

  /** Every record the form builds converts without raising. */
  lemma FormRecordConvertible(p: Parsers, f: Form)
    ensures Convertible(p, FormRecord(f))
  {
    FormValuesConvert(p, f, FormRecord(f));
  }

  /** A column of a record holding the form's values converts the form's own value for it. */
  lemma FormColumnConverts(p: Parsers, f: Form, d: Dict, c: Column)
    requires HoldsForm(f, d)
    ensures Convert(p, WriteRule(c), d) == ConvertValue(p, WriteRule(c).coercion, FormEntry(f, Field(c)))
  {
    WriteRulesFollowMapping();
  }

  /** `row` is what `save_record` converts from `d`, column by column. */
  ghost predicate ConvertedFrom(p: Parsers, d: Dict, row: Row) {
    && (forall k :: k in row)
    && (forall c :: Some(row[Field(c)]) == Convert(p, WriteRule(c), d))
  }

  /** The form's time is stored as the text the picker's value prints as. */
  lemma StoredTime(p: Parsers, f: Form, d: Dict, row: Row)
    requires HoldsForm(f, d) && ConvertedFrom(p, d, row)
    ensures row[Field(Time)] == Str(f.time)
  {
    FormColumnConverts(p, f, d, Time);
  }

  /** The form's date is stored as its text. */
  lemma StoredDate(p: Parsers, f: Form, d: Dict, row: Row)
    requires HoldsForm(f, d) && ConvertedFrom(p, d, row)
    ensures row[Field(Date)] == Str(f.date)
  {
    FormColumnConverts(p, f, d, Date);
  }

  /** The break name is stored as typed. */
  lemma StoredBreak(p: Parsers, f: Form, d: Dict, row: Row)
    requires HoldsForm(f, d) && ConvertedFrom(p, d, row)
    ensures row[Field(Break)] == Str(f.breakName)
  {
    FormColumnConverts(p, f, d, Break);
  }

  /** The zone is stored as typed. */
  lemma StoredZone(p: Parsers, f: Form, d: Dict, row: Row)
    requires HoldsForm(f, d) && ConvertedFrom(p, d, row)
    ensures row[Field(Zone)] == Str(f.zone)
  {
    FormColumnConverts(p, f, d, Zone);
  }

  /** The total score is stored as a float. */
  lemma StoredScore(p: Parsers, f: Form, d: Dict, row: Row)
    requires HoldsForm(f, d) && ConvertedFrom(p, d, row)
    ensures row[Field(TotalScore)] == Float(f.totalScore)
  {
    FormColumnConverts(p, f, d, TotalScore);
  }

  /** The form's swell direction of 0 is falsy, so it is stored as null rather than 0. */
  lemma StoredSwellDirection(p: Parsers, f: Form, d: Dict, row: Row)
    requires HoldsForm(f, d) && ConvertedFrom(p, d, row)
    ensures row[Field(SwellDirection)] == Null
  {
    FormColumnConverts(p, f, d, SwellDirection);
  }

  /** The typed comments land under their own columns. */
  lemma FormCommentEntries(f: Form)
    ensures FormEntry(f, Field(SwellComments)) == Str(f.swellComments)
    ensures FormEntry(f, Field(WindComments)) == Str(f.windComments)
    ensures FormEntry(f, Field(TideComments)) == Str(f.tideComments)
  {
    SwellCommentEntry(f);
    WindCommentEntry(f);
    TideCommentEntry(f);
  }

  lemma SwellCommentEntry(f: Form)
    ensures FormEntry(f, Field(SwellComments)) == Str(f.swellComments)
  {
  }

  lemma WindCommentEntry(f: Form)
    ensures FormEntry(f, Field(WindComments)) == Str(f.windComments)
  {
  }

  lemma TideCommentEntry(f: Form)
    ensures FormEntry(f, Field(TideComments)) == Str(f.tideComments)
  {
  }

  /** The form's commentary is its three comments joined. */
  lemma FormCommentaryIsJoined(f: Form)
    ensures FormEntry(f, Field(FullCommentary)) == Str(JoinComments(f.swellComments, f.windComments, f.tideComments))
  {
  }

  /** The joined comments are stored as they are. */
  lemma StoredCommentary(p: Parsers, f: Form, d: Dict, row: Row)
    requires HoldsForm(f, d) && ConvertedFrom(p, d, row)
    ensures row[Field(FullCommentary)] == Str(JoinComments(f.swellComments, f.windComments, f.tideComments))
  {
    FormColumnConverts(p, f, d, FullCommentary);
    FormCommentaryIsJoined(f);
  }

  /** The sizes, the tide reading and the final tide score the form fills in as 0 are stored as the float zero. */
  lemma StoredFixedFloats(p: Parsers, f: Form, d: Dict, row: Row)
    requires HoldsForm(f, d) && ConvertedFrom(p, d, row)
    ensures row[Field(SurflinePrimarySwellSize)] == Float(0.0)
    ensures row[Field(SeabreezeSwell)] == Float(0.0)
    ensures row[Field(TideReading)] == Float(0.0)
    ensures row[Field(TideFinalScore)] == Float(0.0)
  {
    FormColumnConverts(p, f, d, SurflinePrimarySwellSize);
    FormColumnConverts(p, f, d, SeabreezeSwell);
    FormColumnConverts(p, f, d, TideReading);
    FormColumnConverts(p, f, d, TideFinalScore);
  }

  /** The swell period and swell scores the form fills in as 0 are stored as the integer zero. */
  lemma StoredFixedSwellInts(p: Parsers, f: Form, d: Dict, row: Row)
    requires HoldsForm(f, d) && ConvertedFrom(p, d, row)
    ensures row[Field(SwellPeriod)] == Int(0)
    ensures row[Field(SwellScore)] == Int(0)
    ensures row[Field(FinalSwellScore)] == Int(0)
  {
    FormColumnConverts(p, f, d, SwellPeriod);
    FormColumnConverts(p, f, d, SwellScore);
    FormColumnConverts(p, f, d, FinalSwellScore);
  }

  /** The wind speed and the wind and tide scores the form fills in as 0 are stored as the integer zero. */
  lemma StoredFixedWindTideInts(p: Parsers, f: Form, d: Dict, row: Row)
    requires HoldsForm(f, d) && ConvertedFrom(p, d, row)
    ensures row[Field(WindSpeed)] == Int(0)
    ensures row[Field(WindScore)] == Int(0)
    ensures row[Field(WindFinalScore)] == Int(0)
    ensures row[Field(TideScore)] == Int(0)
  {
    FormColumnConverts(p, f, d, WindSpeed);
    FormColumnConverts(p, f, d, WindScore);
    FormColumnConverts(p, f, d, WindFinalScore);
    FormColumnConverts(p, f, d, TideScore);
  }

  /** The form's fixed answers are stored as they are: "Yes" for the three suitability columns, "N" for the bearing, "High" for the tide direction. */
  lemma StoredFixedTexts(p: Parsers, f: Form, d: Dict, row: Row)
    requires HoldsForm(f, d) && ConvertedFrom(p, d, row)
    ensures row[Field(SuitableSwell)] == Str("Yes")
    ensures row[Field(SuitableWind)] == Str("Yes")
    ensures row[Field(TideSuitable)] == Str("Yes")
    ensures row[Field(WindBearing)] == Str("N")
    ensures row[Field(TideDirection)] == Str("High")
  {
    FormColumnConverts(p, f, d, SuitableSwell);
    FormColumnConverts(p, f, d, SuitableWind);
    FormColumnConverts(p, f, d, TideSuitable);
    FormColumnConverts(p, f, d, WindBearing);
    FormColumnConverts(p, f, d, TideDirection);
  }

  /** Every other number the form fills in as 0 is stored as zero. */
  lemma StoredZeros(p: Parsers, f: Form, d: Dict, row: Row)
    requires HoldsForm(f, d) && ConvertedFrom(p, d, row)
    ensures forall c :: FormEntry(f, Field(c)) == Int(0) && WriteRule(c).coercion == AsInt ==> row[Field(c)] == Int(0)
    ensures forall c :: FormEntry(f, Field(c)) == Int(0) && WriteRule(c).coercion == AsFloat ==> row[Field(c)] == Float(0.0)
  {
    forall c | FormEntry(f, Field(c)) == Int(0) && WriteRule(c).coercion == AsInt ensures row[Field(c)] == Int(0) {
      FormColumnConverts(p, f, d, c);
    }
    forall c | FormEntry(f, Field(c)) == Int(0) && WriteRule(c).coercion == AsFloat ensures row[Field(c)] == Float(0.0) {
      FormColumnConverts(p, f, d, c);
    }
  }

  /** The record the form builds holds the form's values, converts, and is what an insert stores for it. */
  lemma FormRecordSaved(p: Parsers, user: string, f: Form)
    ensures HoldsForm(f, FormRecord(f))
    ensures Convertible(p, FormRecord(f))
    ensures ConvertedFrom(p, FormRecord(f), SaveRow(p, user, FormRecord(f)))
    ensures SaveRow(p, user, FormRecord(f))[Owner] == Str(user)
    ensures SaveRow(p, user, FormRecord(f))[Visibility] == Str(f.visibility)
  {
    FormRecordConvertible(p, f);
  }

  /** Comments with no whitespace at their ends are joined by exactly one space each. */
  lemma CommentaryJoinsComments(swell: string, wind: string, tide: string)
    requires swell != "" && wind != "" && tide != ""
    requires PyText.Trimmed(swell) && PyText.Trimmed(wind) && PyText.Trimmed(tide)
    ensures JoinComments(swell, wind, tide) == swell + " " + wind + " " + tide
  {
    var m := swell + " " + wind + " " + tide;
    assert m[0] == swell[0] && m[|m| - 1] == tide[|tide| - 1];
    assert "" + m + "" == m;
    PyText.StripCharacterized("", m, "");
  }

  /** Leaving every comment box empty stores an empty commentary. */
  lemma EmptyCommentsGiveEmptyCommentary()
    ensures JoinComments("", "", "") == ""
  {
    assert "" + " " + "" + " " + "" == "" + "" + "  ";
    PyText.StripCharacterized("", "", "  ");
  }

  /** An empty middle box leaves two spaces between the others: only the ends are stripped. */
  lemma EmptyWindCommentLeavesDoubleSpace(swell: string, tide: string)
    requires swell != "" && tide != ""
    requires PyText.Trimmed(swell) && PyText.Trimmed(tide)
    ensures JoinComments(swell, "", tide) == swell + "  " + tide
  {
    var m := swell + "  " + tide;
    assert swell + " " + "" + " " + tide == "" + m + "";
    assert m[0] == swell[0] && m[|m| - 1] == tide[|tide| - 1];
    PyText.StripCharacterized("", m, "");
  }

  /** An empty first box leaves no leading space. */
  lemma EmptySwellCommentDropsLeadingSpace(wind: string, tide: string)
    requires wind != "" && tide != ""
    requires PyText.Trimmed(wind) && PyText.Trimmed(tide)
    ensures JoinComments("", wind, tide) == wind + " " + tide
  {
    var m := wind + " " + tide;
    assert "" + " " + wind + " " + tide == " " + m + "";
    assert m[0] == wind[0] && m[|m| - 1] == tide[|tide| - 1];
    PyText.StripCharacterized(" ", m, "");
  }

  /**
   * The screen a submission moves to is what `save_record` reports for the
   * form's record: the insert it sends is the user's converted form, and the
   * list comes back exactly when that insert returns `True`.
   */
  lemma StepAgreesWithSaveRecord(p: Parsers, user: string, view: View, event: Event, reply: Reply<Row>)
    requires Step(view, event, reply).saved.Some?
    ensures var f := Step(view, event, reply).saved.value;
      && Convertible(p, FormRecord(f))
      && SaveRecord(p, Some(user), FormRecord(f), reply)
         == Attempt(Some(Insert(SaveRow(p, user, FormRecord(f)))), Step(view, event, reply).view == Browsing)
  {
    FormRecordConvertible(p, Step(view, event, reply).saved.value);
  }

  /** Over any run of interactions, only forms with a break name are ever saved. */
  lemma {:induction false} RunOnlySavesNamedBreaks(view: View, events: seq<(Event, Reply<Row>)>)
    ensures forall i :: 0 <= i < |Run(view, events).1| ==> Run(view, events).1[i].breakName != ""
    decreases |events|
  {
    if events != [] {
      var o := Step(view, events[0].0, events[0].1);
      var rest := Run(o.view, events[1..]).1;
      var head := if o.saved.Some? then [o.saved.value] else [];
      assert Run(view, events).1 == head + rest;
      RunOnlySavesNamedBreaks(o.view, events[1..]);
    }
  }

  /** The form stays open until it is left by "Back" or by a save the store confirms. */
  lemma LeavingTheForm(view: View, event: Event, reply: Reply<Row>)
    requires view == Creating && Step(view, event, reply).view == Browsing
    ensures event == BackPressed || (event.Submitted? && event.form.breakName != "" && reply.HasRows())
  {
  }

  /** The session opens on the list, where no interaction saves anything or shows a message. */
  lemma NothingSavedFromTheList(event: Event, reply: Reply<Row>)
    ensures Step(InitialView, event, reply).saved == None
    ensures Step(InitialView, event, reply).message == None
  {
  }

  // ------------------------------------------------------------ the list

  /** The columns the list shows, when the loaded records have them. */
  const DisplayColumns: seq<string> := ["Date", "Break", "Zone", "TOTAL SCORE"]

  /** A loaded table has no cells: no records, or records without any column. */
  predicate EmptyTable(frame: seq<Dict>) {
    forall i :: 0 <= i < |frame| ==> frame[i] == map[]
  }

  /** The table's columns: those of any of its records. */
  predicate HasColumn(frame: seq<Dict>, col: string) {
    exists i :: 0 <= i < |frame| && col in frame[i]
  }

  /** The wanted columns the table has, in the wanted order. */
  function AvailableColumns(wanted: seq<string>, frame: seq<Dict>): (r: seq<string>)
    ensures forall col :: col in r <==> col in wanted && HasColumn(frame, col)
    ensures |r| <= |wanted|
    ensures wanted != [] && HasColumn(frame, wanted[0]) ==> r[0] == wanted[0]
    decreases |wanted|
  {
    if wanted == [] then []
    else if HasColumn(frame, wanted[0]) then [wanted[0]] + AvailableColumns(wanted[1..], frame)
    else AvailableColumns(wanted[1..], frame)
  }

  /** What the list screen shows: the available columns of the user's records, or nothing when there are none. */
  function ListScreen(frame: seq<Dict>): (r: Option<seq<string>>)
    ensures r.None? <==> EmptyTable(frame)
    ensures r.Some? ==> forall col :: col in r.value <==> col in DisplayColumns && HasColumn(frame, col)
    ensures r.Some? ==> r.value == AvailableColumns(DisplayColumns, frame)
  {
    if EmptyTable(frame) then None else Some(AvailableColumns(DisplayColumns, frame))
  }

  /**
   * The shown columns keep the wanted order: the k-th shown column is the
   * wanted column at position `idx[k]`, and those positions increase.
   */
  lemma {:induction false} AvailableColumnsKeepOrder(wanted: seq<string>, frame: seq<Dict>) returns (idx: seq<nat>)
    ensures |idx| == |AvailableColumns(wanted, frame)|
    ensures forall k :: 0 <= k < |idx| ==> idx[k] < |wanted| && AvailableColumns(wanted, frame)[k] == wanted[idx[k]]
    ensures forall k, l :: 0 <= k < l < |idx| ==> idx[k] < idx[l]
    decreases |wanted|
  {
    if wanted == [] {
      idx := [];
    } else {
      var rest := AvailableColumnsKeepOrder(wanted[1..], frame);
      var keep := HasColumn(frame, wanted[0]);
      var shown := AvailableColumns(wanted[1..], frame);
      assert AvailableColumns(wanted, frame) == if keep then [wanted[0]] + shown else shown;
      idx := ShiftIndices(wanted, shown, rest, keep);
    }
  }

  /** Positions into `wanted[1..]` become positions into `wanted`, with the head in front when it is kept. */
  lemma ShiftIndices(wanted: seq<string>, shown: seq<string>, rest: seq<nat>, keep: bool) returns (idx: seq<nat>)
    requires wanted != [] && |rest| == |shown|
    requires forall k :: 0 <= k < |rest| ==> rest[k] < |wanted| - 1 && shown[k] == wanted[1..][rest[k]]
    requires forall k, l :: 0 <= k < l < |rest| ==> rest[k] < rest[l]
    ensures var r := if keep then [wanted[0]] + shown else shown;
      && |idx| == |r|
      && (forall k :: 0 <= k < |idx| ==> idx[k] < |wanted| && r[k] == wanted[idx[k]])
      && (forall k, l :: 0 <= k < l < |idx| ==> idx[k] < idx[l])
  {
    var shifted := seq(|rest|, k requires 0 <= k < |rest| => rest[k] + 1);
    assert forall k :: 0 <= k < |shifted| ==> shown[k] == wanted[shifted[k]];
    idx := if keep then [0] + shifted else shifted;
  }

  /** When every wanted column is in the table, all of them are shown, in the wanted order. */
  lemma {:induction false} AllAvailable(wanted: seq<string>, frame: seq<Dict>)
    requires forall j :: 0 <= j < |wanted| ==> HasColumn(frame, wanted[j])
    ensures AvailableColumns(wanted, frame) == wanted
  {
    if wanted != [] {
      assert HasColumn(frame, wanted[0]);
      AllAvailable(wanted[1..], frame);
    }
  }

  /** A table with a record that has every column's label shows all four display columns, in order. */
  lemma ShowsAllColumns(frame: seq<Dict>, i: nat)
    requires i < |frame|
    requires forall c :: Label(c) in frame[i]
    ensures ListScreen(frame) == Some(DisplayColumns)
  {
    var w := DisplayColumns;
    DisplayColumnsAreLabels();
    assert Label(Date) in frame[i] && Label(Break) in frame[i] && Label(Zone) in frame[i] && Label(TotalScore) in frame[i];
    forall j | 0 <= j < |w| ensures HasColumn(frame, w[j]) {
      assert w[j] in frame[i];
    }
    assert !EmptyTable(frame) by {
      assert w[0] in frame[i];
    }
    AllAvailable(w, frame);
  }

  /** The list's columns are the labels of the date, break, zone and total score columns. */
  lemma DisplayColumnsAreLabels()
    ensures DisplayColumns == [Label(Date), Label(Break), Label(Zone), Label(TotalScore)]
  {
  }

  /** Once any record saved by the dashboard is loaded, the list shows all four of its columns, in order. */
  lemma SavedRecordsShowAllColumns(p: Parsers, owner: string, data: Dict, frame: seq<Dict>, i: nat)
    requires Convertible(p, data)
    requires i < |frame| && frame[i] == Rename(SaveRow(p, owner, data))
    ensures ListScreen(frame) == Some(DisplayColumns)
  {
    SaveThenLoad(p, owner, data);
    ShowsAllColumns(frame, i);
  }
}

=== FILE: fieldmapping.dfy ===
/**
 * The dashboard's record conversions (superweirdonebud_supabase.py):
 * display-labelled form data to stored columns on insert and update, and
 * stored columns back to display labels on load.
 */
module FieldMapping {
  import opened Wrappers
  import opened PyValues
  import opened Backend
  import opened Columns
  import Api

  /** A record as the dashboard builds it: display labels (and `publicity`) to values. */
  type Dict = map<string, Value>

  /** A record as written to or read from the store, by key. */
  type Row = map<Key, Value>

  /** `d.get(key, default)`. */
  function Get(d: Dict, key: string, default: Value): Value {
    if key in d then d[key] else default
  }

  /** How one value is stored under a conversion, or `None` when Python's conversion raises. */
  function ConvertValue(p: Parsers, coercion: Coercion, v: Value): (r: Option<Value>)
    ensures coercion == AsIs ==> r == Some(v)
    ensures coercion == AsText ==> r == Some(Str(ToStr(p, v)))
    ensures coercion == AsFloat ==> r == ToFloat(p, v)
    ensures coercion == AsInt ==> r == ToInt(p, v)
    ensures coercion == FloatWhenTruthy ==> (r == Some(Null) <==> !Truthy(v))
    ensures coercion == FloatWhenTruthy && Truthy(v) ==> r == ToFloat(p, v)
  {
    match coercion
    case AsText => Some(Str(ToStr(p, v)))
    case AsIs => Some(v)
    case AsFloat => ToFloat(p, v)
    case AsInt => ToInt(p, v)
    case FloatWhenTruthy => if Truthy(v) then ToFloat(p, v) else Some(Null)
  }

  /** What a missing label is read as: `get(label, 0)` for numbers, `get(label)` otherwise. */
  function Missing(coercion: Coercion): Value {
    if coercion == AsFloat || coercion == AsInt then Int(0) else Null
  }

  /** The stored value for one rule: the label's value, or its stand-in when the label is missing. */
  function Convert(p: Parsers, rule: FieldRule, data: Dict): (r: Option<Value>)
    ensures rule.source in data ==> r == ConvertValue(p, rule.coercion, data[rule.source])
    ensures rule.source !in data ==> r == ConvertValue(p, rule.coercion, Missing(rule.coercion))
    ensures rule.coercion == AsIs ==> r == Some(Get(data, rule.source, Null))
    ensures rule.coercion == AsText ==> r.Some? && r.value.Str?
    ensures rule.coercion == AsFloat && rule.source !in data ==> r == Some(Float(0.0))
    ensures rule.coercion == AsInt && rule.source !in data ==> r == Some(Int(0))
    ensures rule.coercion == FloatWhenTruthy ==>
      (r == Some(Null) <==> !Truthy(Get(data, rule.source, Null)))
  {
    ConvertValue(p, rule.coercion, Get(data, rule.source, Missing(rule.coercion)))
  }

  /** Every column converts without raising. */
  predicate Convertible(p: Parsers, data: Dict) {
    forall c: Column :: Convert(p, WriteRule(c), data).Some?
  }

  /** The converted columns shared by inserts and updates. */
  function ConvertFields(p: Parsers, data: Dict): (row: Row)
    requires Convertible(p, data)
    ensures forall k :: k in row <==> k.Field?
    ensures forall c :: Some(row[Field(c)]) == Convert(p, WriteRule(c), data)
  {
    AllColumnsComplete();
    map k | k in FieldKeys :: Convert(p, WriteRule(k.column), data).value
  }

  /** The row an insert writes: the converted columns plus owner and visibility, so every key. */
  function SaveRow(p: Parsers, owner: string, data: Dict): (row: Row)
    requires Convertible(p, data)
    ensures forall k :: k in row
    ensures row[Owner] == Str(owner)
    ensures row[Visibility] == Get(data, VisibilityName, Str(DefaultVisibility))
    ensures forall c :: Some(row[Field(c)]) == Convert(p, WriteRule(c), data)
  {
    var fields := ConvertFields(p, data);
    AllColumnsComplete();
    fields[Owner := Str(owner)][Visibility := Get(data, VisibilityName, Str(DefaultVisibility))]
  }

  /** A request handed to the store. */
  datatype StoreRequest =
    | Insert(row: Row)
    | Update(row: Row, recordId: string, owner: string)
    | Delete(recordId: string, owner: string)
    | Select(owner: string, visibility: Option<string>, orderColumn: string, descending: bool)

  /** What a write did: the request it sent, if any, and the boolean it returned. */
  datatype Attempt = Attempt(sent: Option<StoreRequest>, ok: bool)

  /** `save_record`: nothing happens without a user or when a conversion raises. */
  function SaveRecord(p: Parsers, user: Option<string>, data: Dict, reply: Reply<Row>): (r: Attempt)
    ensures user == None ==> r == Attempt(None, false)
    ensures r.sent.Some? <==> user.Some? && Convertible(p, data)
    ensures r.sent.Some? ==> r.sent.value == Insert(SaveRow(p, user.value, data))
    ensures r.ok <==> r.sent.Some? && reply.HasRows()
  {
    if user == None then Attempt(None, false)
    else if !Convertible(p, data) then Attempt(None, false)
    else Attempt(Some(Insert(SaveRow(p, user.value, data))), reply.HasRows())
  }

  /** `update_record`: the same conversion, scoped to the record and its owner. */
  function UpdateRecord(p: Parsers, user: Option<string>, recordId: string, data: Dict, reply: Reply<Row>): (r: Attempt)
    ensures user == None ==> r == Attempt(None, false)
    ensures r.sent.Some? <==> user.Some? && Convertible(p, data)
    ensures r.sent.Some? ==> r.sent.value == Update(ConvertFields(p, data), recordId, user.value)
    ensures r.ok <==> r.sent.Some? && reply.HasRows()
  {
    if user == None then Attempt(None, false)
    else if !Convertible(p, data) then Attempt(None, false)
    else Attempt(Some(Update(ConvertFields(p, data), recordId, user.value)), reply.HasRows())
  }

  /** `delete_record`: reports success whenever the call does not fail, even if nothing matched. */
  function DeleteRecord(user: Option<string>, recordId: string, reply: Reply<Row>): (r: Attempt)
    ensures user == None ==> r == Attempt(None, false)
    ensures user.Some? ==> r.sent == Some(Delete(recordId, user.value))
    ensures user.Some? ==> (r.ok <==> reply.Rows?)
  {
    if user == None then Attempt(None, false)
    else Attempt(Some(Delete(recordId, user.value)), reply.Rows?)
  }

  /** The storage names a row is written under. */
  function StoredNames(row: Row): (names: set<string>)
    ensures forall k :: k in row ==> KeyName(k) in names
    ensures forall n :: n in names ==> exists k :: k in row && KeyName(k) == n
  {
    set k | k in row :: KeyName(k)
  }

  /**
   * `rename(columns=column_mapping)` on one loaded record: each column
   * reappears under its label, owner and visibility keep their names.
   */
  function Rename(row: Row): (frame: Dict)
    ensures forall k :: k in row ==> DisplayName(k) in frame && frame[DisplayName(k)] == row[k]
    ensures forall l :: l in frame ==> exists k :: k in row && DisplayName(k) == l
  {
    DisplayNamesDistinct();
    map k | k in row :: DisplayName(k) := row[k]
  }

  /** Only the owner key is renamed to `user_id`. */
  lemma RenameWithoutOwner(row: Row)
    requires Owner !in row
    ensures OwnerName !in Rename(row)
  {
    ReservedNamesAreNotColumns();
  }

  /** Every column present in `row` appears under its display label after renaming, and so does the visibility. */
  lemma RenameKeepsColumns(row: Row)
    requires forall c :: Field(c) in row
    ensures forall c :: Label(c) in Rename(row) && Rename(row)[Label(c)] == row[Field(c)]
    ensures Visibility in row ==> VisibilityName in Rename(row) && Rename(row)[VisibilityName] == row[Visibility]
  {
    forall c ensures Label(c) in Rename(row) && Rename(row)[Label(c)] == row[Field(c)] {
      assert DisplayName(Field(c)) == Label(c);
    }
    assert DisplayName(Visibility) == VisibilityName;
  }

  /** Loaded records come newest first: ordered on the `date` column, descending. */
  const LoadOrderColumn: string := "date"

  /** What loading returned: the query it sent, if any, and the renamed records. */
  datatype Loaded = Loaded(sent: Option<StoreRequest>, frame: seq<Dict>)

  /** `load_user_records`: the user's records under display labels; nothing at all without a user or on failure. */
  function LoadUserRecords(user: Option<string>, visibility: Option<string>, reply: Reply<Row>): (r: Loaded)
    ensures user == None ==> r == Loaded(None, [])
    ensures user.Some? ==> r.sent == Some(Select(user.value, if visibility.Some? && visibility.value != "" then visibility else None, LoadOrderColumn, true))
    ensures user.Some? && reply.Rows? ==>
      |r.frame| == |reply.data| && forall i :: 0 <= i < |r.frame| ==> r.frame[i] == Rename(reply.data[i])
    ensures reply.IsError() ==> r.frame == []
  {
    if user == None then Loaded(None, [])
    else
      var query := Select(user.value, if visibility.Some? && visibility.value != "" then visibility else None, LoadOrderColumn, true);
      match reply
      case Rows(data) => Loaded(Some(query), seq(|data|, i requires 0 <= i < |data| => Rename(data[i])))
      case _ => Loaded(Some(query), [])
  }

  // ------------------------------------------------------------ properties

  /** A row holding every key is stored under `user_id`, `publicity` and the columns' storage names, and nothing else. */
  lemma StoredNamesOfFullRow(row: Row)
    requires forall k :: k in row
    ensures forall n :: n in StoredNames(row) <==>
      n == OwnerName || n == VisibilityName || exists c :: ColumnName(c) == n
  {
    forall n | n in StoredNames(row) ensures n == OwnerName || n == VisibilityName || exists c :: ColumnName(c) == n {
      var k :| k in row && KeyName(k) == n;
      if k.Field? { assert ColumnName(k.column) == n; }
    }
    forall n | n == OwnerName || n == VisibilityName || exists c :: ColumnName(c) == n
      ensures n in StoredNames(row)
    {
      if n == OwnerName {
        assert KeyName(Owner) == n;
      } else if n == VisibilityName {
        assert KeyName(Visibility) == n;
      } else {
        var c :| ColumnName(c) == n;
        assert KeyName(Field(c)) == n;
      }
    }
  }

  /** An insert writes exactly `user_id`, `publicity` and the storage names of `column_mapping`, which are distinct. */
  lemma SavedColumns(p: Parsers, owner: string, data: Dict)
    requires Convertible(p, data)
    ensures forall n :: n in StoredNames(SaveRow(p, owner, data)) <==>
      n == OwnerName || n == VisibilityName || exists c :: ColumnName(c) == n
    ensures forall c :: ColumnName(c) != OwnerName && ColumnName(c) != VisibilityName
  {
    StoredNamesOfFullRow(SaveRow(p, owner, data));
    ReservedNamesAreNotColumns();
  }

  /** Loading a row that holds every key shows every column under its label, and nothing but the labels, owner and visibility. */
  lemma RenameFullRow(row: Row)
    requires forall k :: k in row
    ensures forall l :: l in Rename(row) <==> l == OwnerName || l == VisibilityName || exists c :: Label(c) == l
    ensures forall c :: Label(c) in Rename(row) && Rename(row)[Label(c)] == row[Field(c)]
    ensures Rename(row)[OwnerName] == row[Owner] && Rename(row)[VisibilityName] == row[Visibility]
  {
    var frame := Rename(row);
    forall l | l in frame ensures l == OwnerName || l == VisibilityName || exists c :: Label(c) == l {
      var k :| k in row && DisplayName(k) == l;
      if k.Field? { assert Label(k.column) == l; }
    }
    forall l | l == OwnerName || l == VisibilityName || exists c :: Label(c) == l
      ensures l in frame
    {
      if l == OwnerName {
        assert DisplayName(Owner) == l;
      } else if l == VisibilityName {
        assert DisplayName(Visibility) == l;
      } else {
        var c :| Label(c) == l;
        assert DisplayName(Field(c)) == l;
      }
    }
    forall c ensures Label(c) in frame && frame[Label(c)] == row[Field(c)] {
      assert DisplayName(Field(c)) == Label(c);
    }
    assert DisplayName(Owner) == OwnerName && DisplayName(Visibility) == VisibilityName;
  }

  /**
   * Save, then load: the loaded record holds exactly the display labels plus
   * `user_id` and `publicity`; under each label, the value converted from
   * what was saved under that same label (so labels written as they are come
   * back unchanged); and the owner and visibility that were written.
   */
  lemma SaveThenLoad(p: Parsers, owner: string, data: Dict)
    requires Convertible(p, data)
    ensures forall l :: l in Rename(SaveRow(p, owner, data)) <==>
      l == OwnerName || l == VisibilityName || exists c :: Label(c) == l
    ensures forall c :: Label(c) in Rename(SaveRow(p, owner, data))
    ensures forall c :: Some(Rename(SaveRow(p, owner, data))[Label(c)]) == Convert(p, WriteRule(c), data)
    ensures forall c :: WriteRule(c).coercion == AsIs && Label(c) in data ==>
      Rename(SaveRow(p, owner, data))[Label(c)] == data[Label(c)]
    ensures Rename(SaveRow(p, owner, data))[OwnerName] == Str(owner)
    ensures Rename(SaveRow(p, owner, data))[VisibilityName] == Get(data, VisibilityName, Str(DefaultVisibility))
  {
    RenameFullRow(SaveRow(p, owner, data));
    WriteRulesFollowMapping();
  }

  /** A numeric column missing from the input is stored as zero, a float or an integer according to its conversion. */
  lemma MissingNumbersStoredAsZero(p: Parsers, owner: string, data: Dict)
    requires Convertible(p, data)
    ensures forall c :: WriteRule(c).source !in data && WriteRule(c).coercion == AsFloat ==>
      SaveRow(p, owner, data)[Field(c)] == Float(0.0)
    ensures forall c :: WriteRule(c).source !in data && WriteRule(c).coercion == AsInt ==>
      SaveRow(p, owner, data)[Field(c)] == Int(0)
  {
  }

  /** Swell direction is stored as null exactly when its input is absent or falsy, the number 0 included. */
  lemma SwellDirectionNullWhenFalsy(p: Parsers, owner: string, data: Dict)
    requires Convertible(p, data)
    ensures SaveRow(p, owner, data)[Field(SwellDirection)] == Null <==> !Truthy(Get(data, "Swell Direction", Null))
    ensures "Swell Direction" in data && data["Swell Direction"] == Int(0) ==>
      SaveRow(p, owner, data)[Field(SwellDirection)] == Null
  {
    assert Some(SaveRow(p, owner, data)[Field(SwellDirection)]) == Convert(p, WriteRule(SwellDirection), data);
  }

  /** An update writes every column the insert writes, with the same values, but neither owner nor visibility. */
  lemma UpdateKeepsOwnerAndVisibility(p: Parsers, owner: string, recordId: string, data: Dict, reply: Reply<Row>)
    requires Convertible(p, data)
    ensures var sent := UpdateRecord(p, Some(owner), recordId, data, reply).sent.value;
      && (forall k :: k in InsertOnlyKeys ==> k !in sent.row)
      && (forall c :: Field(c) in sent.row && sent.row[Field(c)] == SaveRow(p, owner, data)[Field(c)])
      && sent.owner == owner
  {
    var fields := ConvertFields(p, data);
    var row := SaveRow(p, owner, data);
    assert UpdateRecord(p, Some(owner), recordId, data, reply).sent.value == Update(fields, recordId, owner);
    forall c ensures Field(c) in fields && fields[Field(c)] == row[Field(c)] {
      assert Some(fields[Field(c)]) == Convert(p, WriteRule(c), data) == Some(row[Field(c)]);
    }
    InsertOnlyKeysAreNotColumns();
  }

  /**
   * The dashboard and the API disagree on deleting a record that is not
   * there: the dashboard reports success, the API answers 404.
   */
  lemma DeleteOfNothingSucceedsOnlyOnTheDashboard(user: string, recordId: string, id: int)
    ensures DeleteRecord(Some(user), recordId, Rows([])).ok
    ensures Api.DeleteSession<Row>(id, Rows([])) == Failure(Api.HttpError(404, Api.NotFoundDetail(id)))
  {
  }

  /**
   * On any reply, the two deletes disagree exactly when nothing was
   * deleted: the dashboard reports success while the API answers 404.
   */
  lemma DeletesDisagreeOnlyOnNothingDeleted(user: string, recordId: string, id: int, reply: Reply<Row>)
    ensures DeleteRecord(Some(user), recordId, reply).ok && Api.DeleteSession(id, reply).Failure?
      <==> reply == Rows([])
    ensures DeleteRecord(Some(user), recordId, reply).ok <==> Api.DeleteSession(id, reply).Success? || reply == Rows([])
  {
  }

  /** A swell period of 2.7 is stored as the integer 2: the fraction is cut off. */
  lemma SwellPeriodTruncated(p: Parsers, owner: string, data: Dict)
    requires Convertible(p, data)
    requires "Swell Period (s)" in data && data["Swell Period (s)"] == Float(2.7)
    ensures SaveRow(p, owner, data)[Field(SwellPeriod)] == Int(2)
  {
    assert Some(SaveRow(p, owner, data)[Field(SwellPeriod)]) == Convert(p, WriteRule(SwellPeriod), data);
  }
}

=== FILE: models.dfy ===
/**
 * The request and response shapes of the API (models.py): what a create
 * request must satisfy before any handler code runs.
 */
module Models {
  import opened Wrappers

  /** Longest accepted title (break name). */
  const TitleMaxLength: nat := 200
  /** Inclusive bounds of `cost` and `estimated_return`. */
  const RatingFloor: real := 0.0
  const RatingCeiling: real := 100.0

  /** The `message` every successful create response carries unless told otherwise. */
  const DefaultMessage: string := "Session recorded successfully!"

  /**
   * The optional fields of a create request. Each is absent unless the
   * client supplies it, and none carries a constraint: in particular the
   * three sub-scores may be any number.
   */
  datatype SessionDetails = SessionDetails(
    date: Option<string>,          // ISO calendar date
    time: Option<string>,
    zone: Option<string>,
    swellSizeSurfline: Option<real>,
    swellSizeSeabreeze: Option<real>,
    swellPeriod: Option<real>,
    swellDirection: Option<real>,
    swellScore: Option<real>,
    swellComments: Option<string>,
    windBearing: Option<string>,
    windSpeed: Option<real>,
    windScore: Option<real>,
    windComments: Option<string>,
    tideReading: Option<real>,
    tideDirection: Option<string>,
    tideScore: Option<real>,
    tideComments: Option<string>)

  /** The details of a request that supplies none of the optional fields. */
  const NoDetails: SessionDetails :=
    SessionDetails(None, None, None, None, None, None, None, None, None, None, None, None, None, None, None, None, None)

  /** A create request whose required fields are all present. */
  datatype SurfSessionCreate = SurfSessionCreate(
    title: string,
    description: string,
    cost: real,
    estimatedReturn: real,
    details: SessionDetails)

  /** A create request as it arrives: the required fields may still be missing. */
  datatype Payload = Payload(
    title: Option<string>,
    description: Option<string>,
    cost: Option<real>,
    estimatedReturn: Option<real>,
    details: SessionDetails)

  /**
   * The fields validation looks at: the four required ones, and the `date`
   * detail, whose annotation as written admits only null.
   */
  datatype Field = Title | Description | Cost | EstimatedReturn | DateDetail

  /** One rejected field, with the bound it broke. */
  datatype FieldError =
    | Missing(field: Field)
    | TooShort(field: Field, minLength: nat)
    | TooLong(field: Field, maxLength: nat)
    | BelowMinimum(field: Field, bound: real)
    | AboveMaximum(field: Field, bound: real)
    | MustBeNull(field: Field)

  /** The constraints of the four required fields. */
  predicate ValidRequest(r: SurfSessionCreate) {
    && 1 <= |r.title| <= TitleMaxLength
    && 1 <= |r.description|
    && RatingFloor <= r.cost <= RatingCeiling
    && RatingFloor <= r.estimatedReturn <= RatingCeiling
  }

  /**
   * Whether the payload's value for one field passes its check. The class
   * body binds the name `date` to `None` before the `date` detail's
   * annotation `Optional[date]` is evaluated, so that detail's type is
   * NoneType: it passes only when absent.
   */
  predicate FieldAccepted(p: Payload, f: Field) {
    match f
    case Title => p.title.Some? && 1 <= |p.title.value| <= TitleMaxLength
    case Description => p.description.Some? && 1 <= |p.description.value|
    case Cost => p.cost.Some? && RatingFloor <= p.cost.value <= RatingCeiling
    case EstimatedReturn => p.estimatedReturn.Some? && RatingFloor <= p.estimatedReturn.value <= RatingCeiling
    case DateDetail => p.details.date == None
  }

  function TextError(f: Field, v: Option<string>, maxLength: Option<nat>): Option<FieldError> {
    match v
    case None => Some(Missing(f))
    case Some(s) =>
      if |s| < 1 then Some(TooShort(f, 1))
      else if maxLength.Some? && |s| > maxLength.value then Some(TooLong(f, maxLength.value))
      else None
  }

  function RatingError(f: Field, v: Option<real>): Option<FieldError> {
    match v
    case None => Some(Missing(f))
    case Some(x) =>
      if x < RatingFloor then Some(BelowMinimum(f, RatingFloor))
      else if x > RatingCeiling then Some(AboveMaximum(f, RatingCeiling))
      else None
  }

  /** The error reported for one field, if any. */
  function FieldCheck(p: Payload, f: Field): (e: Option<FieldError>)
    ensures e == None <==> FieldAccepted(p, f)
    ensures e.Some? ==> e.value.field == f
  {
    match f
    case Title => TextError(Title, p.title, Some(TitleMaxLength))
    case Description => TextError(Description, p.description, None)
    case Cost => RatingError(Cost, p.cost)
    case EstimatedReturn => RatingError(EstimatedReturn, p.estimatedReturn)
    case DateDetail => if p.details.date.Some? then Some(MustBeNull(DateDetail)) else None
  }

  function Errors(checks: seq<Option<FieldError>>): (es: seq<FieldError>)
    ensures forall e :: e in es <==> Some(e) in checks
    ensures |es| == 0 <==> forall i :: 0 <= i < |checks| ==> checks[i] == None
  {
    if checks == [] then []
    else
      var rest := Errors(checks[1..]);
      assert forall i :: 1 <= i < |checks| ==> checks[i] == checks[1..][i - 1];
      match checks[0]
      case None => rest
      case Some(e) => [e] + rest
  }

  /** The fields the class declares a check for, in declaration order, as it is written. */
  const DeclaredFields: seq<Field> := [Title, Description, Cost, EstimatedReturn, DateDetail]

  /** The fields checked once the `date` detail's type is `datetime.date`, which any date satisfies. */
  const RequiredFields: seq<Field> := [Title, Description, Cost, EstimatedReturn]

  /** The errors of one check per listed field name exactly the rejected fields among them. */
  lemma ChecksCoverFields(p: Payload, fields: seq<Field>, checks: seq<Option<FieldError>>)
    requires |checks| == |fields|
    requires forall i :: 0 <= i < |fields| ==> checks[i] == FieldCheck(p, fields[i])
    ensures Errors(checks) == [] <==> forall f :: f in fields ==> FieldAccepted(p, f)
    ensures forall e :: e in Errors(checks) ==> e.field in fields && !FieldAccepted(p, e.field)
    ensures forall f :: f in fields && !FieldAccepted(p, f) ==> FieldCheck(p, f).value in Errors(checks)
  {
    var es := Errors(checks);
    forall e | e in es ensures e.field in fields && !FieldAccepted(p, e.field) {
      var i :| 0 <= i < |checks| && checks[i] == Some(e);
      assert FieldCheck(p, fields[i]) == Some(e);
    }
    forall f | f in fields && !FieldAccepted(p, f) ensures FieldCheck(p, f).value in es {
      var i :| 0 <= i < |fields| && fields[i] == f;
      assert checks[i] == FieldCheck(p, f);
    }
  }

  /** Runs the checks of `fields` in order: the typed request, or every error found. */
  function Checked(p: Payload, fields: seq<Field>): (r: Result<SurfSessionCreate, seq<FieldError>>)
    requires forall f :: f in RequiredFields ==> f in fields
    ensures r.Success? <==> forall f :: f in fields ==> FieldAccepted(p, f)
    ensures r.Success? ==>
      && p.title.Some? && p.description.Some? && p.cost.Some? && p.estimatedReturn.Some?
      && r.value == SurfSessionCreate(p.title.value, p.description.value, p.cost.value, p.estimatedReturn.value, p.details)
      && ValidRequest(r.value)
    ensures r.Failure? ==> |r.error| > 0
    ensures r.Failure? ==> forall e :: e in r.error ==> e.field in fields && !FieldAccepted(p, e.field)
    ensures r.Failure? ==> forall f :: f in fields && !FieldAccepted(p, f) ==> FieldCheck(p, f).value in r.error
  {
    var checks := seq(|fields|, i requires 0 <= i < |fields| => FieldCheck(p, fields[i]));
    var es := Errors(checks);
    ChecksCoverFields(p, fields, checks);
    assert Title in fields && Description in fields && Cost in fields && EstimatedReturn in fields;
    if es == [] then
      Success(SurfSessionCreate(p.title.value, p.description.value, p.cost.value, p.estimatedReturn.value, p.details))
    else
      Failure(es)
  }

  lemma AllFieldsDeclared()
    ensures forall f :: f in DeclaredFields
    ensures forall f :: f in RequiredFields <==> f != DateDetail
  {
    forall f ensures f in DeclaredFields && (f in RequiredFields <==> f != DateDetail) {
      match f
      case Title => assert DeclaredFields[0] == f && RequiredFields[0] == f;
      case Description => assert DeclaredFields[1] == f && RequiredFields[1] == f;
      case Cost => assert DeclaredFields[2] == f && RequiredFields[2] == f;
      case EstimatedReturn => assert DeclaredFields[3] == f && RequiredFields[3] == f;
      case DateDetail => assert DeclaredFields[4] == f;
    }
  }

  /**
   * Request validation as the class is written, run before the handler:
   * either the typed request, which then carries no date, or every field
   * error, in field declaration order.
   */
  function Validate(p: Payload): (r: Result<SurfSessionCreate, seq<FieldError>>)
    ensures r.Success? <==> forall f :: FieldAccepted(p, f)
    ensures r.Success? ==>
      && p.title.Some? && p.description.Some? && p.cost.Some? && p.estimatedReturn.Some?
      && r.value == SurfSessionCreate(p.title.value, p.description.value, p.cost.value, p.estimatedReturn.value, p.details)
      && ValidRequest(r.value)
      && r.value.details.date == None
    ensures r.Failure? ==> |r.error| > 0
    ensures r.Failure? ==> forall e :: e in r.error ==> !FieldAccepted(p, e.field)
    ensures r.Failure? ==> forall f :: !FieldAccepted(p, f) ==> FieldCheck(p, f).value in r.error
  {
    AllFieldsDeclared();
    var r := Checked(p, DeclaredFields);
    assert r.Success? ==> FieldAccepted(p, DateDetail);
    r
  }

  /**
   * Request validation as the class evidently intends it, with `date` a
   * calendar date: only the four required fields can be rejected.
   */
  function ValidateIntended(p: Payload): (r: Result<SurfSessionCreate, seq<FieldError>>)
    ensures r.Success? <==> forall f :: f != DateDetail ==> FieldAccepted(p, f)
    ensures r.Success? ==>
      && p.title.Some? && p.description.Some? && p.cost.Some? && p.estimatedReturn.Some?
      && r.value == SurfSessionCreate(p.title.value, p.description.value, p.cost.value, p.estimatedReturn.value, p.details)
      && ValidRequest(r.value)
    ensures r.Failure? ==> |r.error| > 0
    ensures r.Failure? ==> forall e :: e in r.error ==> e.field != DateDetail && !FieldAccepted(p, e.field)
    ensures r.Failure? ==> forall f :: f != DateDetail && !FieldAccepted(p, f) ==> FieldCheck(p, f).value in r.error
  {
    AllFieldsDeclared();
    Checked(p, RequiredFields)
  }

  /** A payload built from a typed request, with every required field present. */
  function PayloadOf(r: SurfSessionCreate): Payload {
    Payload(Some(r.title), Some(r.description), Some(r.cost), Some(r.estimatedReturn), r.details)
  }

  lemma RejectedRequiredField(r: SurfSessionCreate) returns (f: Field)
    requires !ValidRequest(r)
    ensures f != DateDetail && !FieldAccepted(PayloadOf(r), f)
  {
    if !(1 <= |r.title| <= TitleMaxLength) { f := Title; }
    else if !(1 <= |r.description|) { f := Description; }
    else if !(RatingFloor <= r.cost <= RatingCeiling) { f := Cost; }
    else { f := EstimatedReturn; }
  }

  /** As written, a complete request is accepted iff it meets the four constraints and carries no date, and it comes back unchanged. */
  lemma ValidateAcceptsValidRequests(r: SurfSessionCreate)
    ensures Validate(PayloadOf(r)).Success? <==> ValidRequest(r) && r.details.date == None
    ensures Validate(PayloadOf(r)).Success? ==> Validate(PayloadOf(r)).value == r
  {
    if !ValidRequest(r) {
      var f := RejectedRequiredField(r);
    } else if r.details.date.Some? {
      assert !FieldAccepted(PayloadOf(r), DateDetail);
    }
  }

  /** With the intended date type, a complete request is accepted iff it meets the four constraints, and comes back unchanged. */
  lemma IntendedAcceptsValidRequests(r: SurfSessionCreate)
    ensures ValidateIntended(PayloadOf(r)).Success? <==> ValidRequest(r)
    ensures ValidRequest(r) ==> ValidateIntended(PayloadOf(r)).value == r
  {
    if !ValidRequest(r) {
      var f := RejectedRequiredField(r);
    }
  }

  /** With the intended date type, the optional fields never decide acceptance. */
  lemma DetailsDoNotAffectValidation(p: Payload, d: SessionDetails)
    ensures ValidateIntended(p).Success? <==> ValidateIntended(p.(details := d)).Success?
  {
    assert forall f :: f != DateDetail ==> (FieldAccepted(p, f) <==> FieldAccepted(p.(details := d), f));
  }

  /** As written, the date is the one optional field that decides acceptance: any date is rejected. */
  lemma OnlyTheDateDetailMatters(p: Payload, d: SessionDetails)
    ensures Validate(p.(details := d)).Success? <==> ValidateIntended(p).Success? && d.date == None
  {
    var q := p.(details := d);
    assert forall f :: f != DateDetail ==> (FieldAccepted(p, f) <==> FieldAccepted(q, f));
    assert FieldAccepted(q, DateDetail) <==> d.date == None;
  }

  /** As written, a request carrying a date is rejected with the date named, whatever its other fields. */
  lemma DatedRequestRejected(p: Payload)
    requires p.details.date.Some?
    ensures Validate(p).Failure?
    ensures MustBeNull(DateDetail) in Validate(p).error
  {
    assert !FieldAccepted(p, DateDetail);
  }

  /** A request the class evidently means to accept, rejected as written because it names a date. */
  lemma DatedExampleRejected()
    ensures var p := Payload(Some("A"), Some("B"), Some(10.0), Some(20.0), NoDetails.(date := Some("2024-05-01")));
      ValidateIntended(p).Success? && Validate(p).Failure?
  {
    var p := Payload(Some("A"), Some("B"), Some(10.0), Some(20.0), NoDetails.(date := Some("2024-05-01")));
    assert forall f :: f != DateDetail ==> FieldAccepted(p, f);
    DatedRequestRejected(p);
  }

  /** A cost of 150 is rejected with the upper bound 100 named in the error. */
  lemma CostAboveHundredRejected(p: Payload)
    requires p.cost == Some(150.0)
    ensures Validate(p).Failure?
    ensures AboveMaximum(Cost, 100.0) in Validate(p).error
  {
    assert !FieldAccepted(p, Cost);
  }

  /** The response returned for a created session. */
  datatype SurfSessionResponse = SurfSessionResponse(
    id: int,
    title: string,
    description: string,
    totalScore: real,
    zone: Option<string>,
    createdAt: string,
    message: string)
}

=== FILE: pytext.dfy ===
/**
 * The few Python string operations the application relies on:
 * `str.isspace`, `str.strip` and `str(int)`.
 */
module PyText {

  /** Python's `str.isspace` on one character (the Unicode White_Space set Python uses). */
  predicate IsSpace(c: char) {
    var k := c as int;
    || 0x09 <= k <= 0x0D || 0x1C <= k <= 0x20 || k == 0x85 || k == 0xA0 || k == 0x1680
    || 0x2000 <= k <= 0x200A || k == 0x2028 || k == 0x2029 || k == 0x202F || k == 0x205F || k == 0x3000
  }

  predicate AllSpace(s: string) {
    forall i :: 0 <= i < |s| ==> IsSpace(s[i])
  }

  /** Neither end of `s` is whitespace: what `strip` leaves behind. */
  predicate Trimmed(s: string) {
    s == [] || (!IsSpace(s[0]) && !IsSpace(s[|s| - 1]))
  }

  /** `s.strip()`: whitespace is dropped from the front, then from the back, until neither end is whitespace. */
  function Strip(s: string): (r: string)
    ensures Trimmed(r)
    ensures |r| <= |s|
    decreases |s|
  {
    if s == [] then s
    else if IsSpace(s[0]) then Strip(s[1..])
    else if IsSpace(s[|s| - 1]) then Strip(s[..|s| - 1])
    else s
  }

  /** Stripping a trimmed string followed by whitespace gives the trimmed string back. */
  lemma {:induction false} StripTrimmedThenSpaces(m: string, b: string)
    requires AllSpace(b) && Trimmed(m) && m != []
    ensures Strip(m + b) == m
    decreases |b|
  {
    var s := m + b;
    assert s[0] == m[0];
    if b == [] {
      assert s == m;
    } else {
      assert s[|s| - 1] == b[|b| - 1];
      assert s[..|s| - 1] == m + b[..|b| - 1];
      StripTrimmedThenSpaces(m, b[..|b| - 1]);
    }
  }

  /** Stripping nothing but whitespace gives the empty string. */
  lemma {:induction false} StripSpaces(s: string)
    requires AllSpace(s)
    ensures Strip(s) == []
    decreases |s|
  {
    if s != [] {
      StripSpaces(s[1..]);
    }
  }

  /**
   * `strip` is determined by its contract: a string made of whitespace, then a
   * trimmed core, then whitespace, strips to exactly that core.
   */
  lemma {:induction false} StripCharacterized(a: string, m: string, b: string)
    requires AllSpace(a) && AllSpace(b) && Trimmed(m)
    ensures Strip(a + m + b) == m
    decreases |a|
  {
    var s := a + m + b;
    if a != [] {
      assert s[0] == a[0];
      assert s[1..] == a[1..] + m + b;
      StripCharacterized(a[1..], m, b);
    } else if m == [] {
      assert s == b;
      StripSpaces(b);
    } else {
      assert s == m + b;
      StripTrimmedThenSpaces(m, b);
    }
  }

  function DigitChar(d: nat): (c: char)
    requires d < 10
    ensures '0' <= c <= '9'
  {
    ['0', '1', '2', '3', '4', '5', '6', '7', '8', '9'][d]
  }

  function DigitValue(c: char): nat
    requires '0' <= c <= '9'
  {
    (c as int) - ('0' as int)
  }

  predicate IsDigits(s: string) {
    |s| > 0 && forall i :: 0 <= i < |s| ==> '0' <= s[i] <= '9'
  }

  /** The number a decimal digit string denotes. */
  function DecimalValue(s: string): nat
    requires IsDigits(s)
  {
    var last := DigitValue(s[|s| - 1]);
    if |s| == 1 then last else DecimalValue(s[..|s| - 1]) * 10 + last
  }

  /** `str(n)` for a non-negative integer: its decimal digits. */
  function NatToString(n: nat): (s: string)
    ensures IsDigits(s)
    ensures s[0] == '0' ==> n == 0
  {
    if n < 10 then [DigitChar(n)] else NatToString(n / 10) + [DigitChar(n % 10)]
  }

  /** `str(i)` for any integer: a minus sign when negative, then the digits. */
  function IntToString(i: int): (s: string)
    ensures i >= 0 ==> IsDigits(s)
    ensures i < 0 ==> |s| > 1 && s[0] == '-' && IsDigits(s[1..])
  {
    if i >= 0 then NatToString(i) else "-" + NatToString(-i)
  }

  /** `str` on naturals is inverted by reading the digits back. */
  lemma {:induction false} NatToStringRoundTrip(n: nat)
    ensures DecimalValue(NatToString(n)) == n
  {
    var s := NatToString(n);
    if n < 10 {
      assert DigitValue(DigitChar(n)) == n;
    } else {
      NatToStringRoundTrip(n / 10);
      assert s[..|s| - 1] == NatToString(n / 10);
      assert DigitValue(DigitChar(n % 10)) == n % 10;
    }
  }

  /** Distinct integers print differently, so an id can be recovered from its text. */
  lemma IntToStringInjective(i: int, j: int)
    requires IntToString(i) == IntToString(j)
    ensures i == j
  {
    if i >= 0 && j >= 0 {
      NatToStringRoundTrip(i);
      NatToStringRoundTrip(j);
    } else if i < 0 && j < 0 {
      assert NatToString(-i) == IntToString(i)[1..];
      NatToStringRoundTrip(-i);
      NatToStringRoundTrip(-j);
    }
  }
}

=== FILE: pyvalues.dfy ===
/**
 * The dynamically typed values that travel through the dashboard's record
 * dictionaries, with Python's truthiness and its `float()`, `int()` and
 * `str()` conversions. A conversion Python would raise on yields `None`.
 */
module PyValues {
  import opened Wrappers
  import PyText

  datatype Value =
    | Null                  // Python None
    | Int(i: int)
    | Float(x: real)
    | Str(s: string)
    | DateValue(iso: string)     // a datetime.date; `str` gives its ISO form
    | TimeValue(clock: string)   // a datetime.time; `str` gives HH:MM:SS

  /**
   * The parts of the conversions that depend on parsing text or printing a
   * float: Python's grammar for them is not part of this model.
   */
  datatype Parsers = Parsers(
    parseFloat: string -> Option<real>,
    parseInt: string -> Option<int>,
    floatText: real -> string)

  /** Python truthiness: None, zero and the empty string are false; dates and times are always true. */
  predicate Truthy(v: Value) {
    match v
    case Null => false
    case Int(i) => i != 0
    case Float(x) => x != 0.0
    case Str(s) => s != ""
    case DateValue(_) => true
    case TimeValue(_) => true
  }

  /** `int(x)` on a float: truncation toward zero. */
  function Trunc(x: real): (n: int)
    ensures 0.0 <= x ==> n as real <= x < n as real + 1.0
    ensures x < 0.0 ==> n as real - 1.0 < x <= n as real
  {
    if x >= 0.0 then x.Floor else -((-x).Floor)
  }

  /** `int()` cuts the fraction off rather than rounding, on both sides of zero. */
  lemma TruncTowardZero()
    ensures Trunc(2.7) == 2
    ensures Trunc(-2.7) == -2
    ensures Trunc(-0.5) == 0
  {
  }

  /** `float(v)`. */
  function ToFloat(p: Parsers, v: Value): (r: Option<Value>)
    ensures v.Int? ==> r == Some(Float(v.i as real))
    ensures v.Float? ==> r == Some(v)
    ensures v.Null? || v.DateValue? || v.TimeValue? ==> r == None
    ensures r.Some? ==> r.value.Float?
  {
    match v
    case Int(i) => Some(Float(i as real))
    case Float(x) => Some(Float(x))
    case Str(s) => if p.parseFloat(s).Some? then Some(Float(p.parseFloat(s).value)) else None
    case _ => None
  }

  /** `int(v)`. */
  function ToInt(p: Parsers, v: Value): (r: Option<Value>)
    ensures v.Int? ==> r == Some(v)
    ensures v.Float? ==> r == Some(Int(Trunc(v.x)))
    ensures v.Null? || v.DateValue? || v.TimeValue? ==> r == None
    ensures r.Some? ==> r.value.Int?
  {
    match v
    case Int(i) => Some(Int(i))
    case Float(x) => Some(Int(Trunc(x)))
    case Str(s) => if p.parseInt(s).Some? then Some(Int(p.parseInt(s).value)) else None
    case _ => None
  }

  /** `str(v)`; never raises. */
  function ToStr(p: Parsers, v: Value): (s: string)
    ensures v.Null? ==> s == "None"
    ensures v.Str? ==> s == v.s
    ensures v.DateValue? ==> s == v.iso
    ensures v.TimeValue? ==> s == v.clock
    ensures v.Int? ==> s == PyText.IntToString(v.i)
    ensures v.Float? ==> s == p.floatText(v.x)
  {
    match v
    case Null => "None"
    case Int(i) => PyText.IntToString(i)
    case Float(x) => p.floatText(x)
    case Str(s) => s
    case DateValue(iso) => iso
    case TimeValue(clock) => clock
  }
}

=== FILE: scoring.dfy ===
/**
 * The session scoring formula of the API (`calculate_score` in main.py).
 *
 * Scores are real numbers. Python's `round(x, 1)` is left abstract: every
 * score function takes the rounding function `rnd` and applies it exactly
 * once, to the final blended value.
 */
module Scoring {
  import opened Wrappers

  /** The values of the slots that hold one, in slot order (`[s for s in slots if s is not None]`). */
  function Present(slots: seq<Option<real>>): (r: seq<real>)
    ensures |r| <= |slots|
    ensures forall x :: x in r <==> Some(x) in slots
    ensures |r| == 0 <==> forall i :: 0 <= i < |slots| ==> slots[i] == None
    ensures |r| == |slots| <==> forall i :: 0 <= i < |slots| ==> slots[i].Some?
  {
    if slots == [] then []
    else
      var rest := Present(slots[1..]);
      assert forall i :: 1 <= i < |slots| ==> slots[i] == slots[1..][i - 1];
      match slots[0]
      case None => rest
      case Some(x) => [x] + rest
  }

  /** The values one slot contributes: itself when present, nothing when `None`. */
  function Slot(o: Option<real>): seq<real> {
    match o
    case None => []
    case Some(x) => [x]
  }

  lemma PresentCons(slots: seq<Option<real>>)
    requires slots != []
    ensures Present(slots) == Slot(slots[0]) + Present(slots[1..])
  {
  }

  lemma PresentOfThree(a: Option<real>, b: Option<real>, c: Option<real>)
    ensures Present([a, b, c]) == Slot(a) + Slot(b) + Slot(c)
  {
    PresentCons([a, b, c]);
    assert [a, b, c][1..] == [b, c];
    PresentCons([b, c]);
    assert [b, c][1..] == [c];
    PresentCons([c]);
    assert [c][1..] == [];
  }

  lemma SumOfFew(x: real, y: real, z: real)
    ensures Sum([x]) == x
    ensures Sum([x, y]) == x + y
    ensures Sum([x, y, z]) == x + y + z
  {
    assert [x, y, z][1..] == [y, z];
    assert [x, y][1..] == [y];
    assert [y, z][1..] == [z];
    assert [z][1..] == [];
    assert [y][1..] == [];
    assert [x][1..] == [];
    assert Sum([z]) == z;
    assert Sum([y]) == y;
  }

  function Sum(s: seq<real>): real {
    if s == [] then 0.0 else s[0] + Sum(s[1..])
  }

  function Mean(s: seq<real>): real
    requires |s| > 0
  {
    Sum(s) / (|s| as real)
  }

  /** `estimated_return - cost`: what the session returned over what it cost. */
  function Base(cost: real, estimatedReturn: real): real {
    estimatedReturn - cost
  }

  /** The score before rounding. */
  function RawScore(cost: real, estimatedReturn: real, swell: Option<real>, wind: Option<real>, tide: Option<real>): real {
    var scores := Present([swell, wind, tide]);
    var base := Base(cost, estimatedReturn);
    if |scores| > 0 then Mean(scores) * 0.6 + base * 0.4 else base
  }

  /**
   * `calculate_score`. Its contract spells out, case by case, which
   * sub-scores enter the mean: only `None` is absent, so a sub-score of 0
   * is averaged in like any other value.
   */
  function CalculateScore(rnd: real -> real, cost: real, estimatedReturn: real,
                          swell: Option<real>, wind: Option<real>, tide: Option<real>): (r: real)
    ensures swell == None && wind == None && tide == None ==> r == rnd(estimatedReturn - cost)
    ensures swell.Some? && wind.Some? && tide.Some? ==>
      r == rnd((swell.value + wind.value + tide.value) / 3.0 * 0.6 + (estimatedReturn - cost) * 0.4)
    ensures swell.Some? && wind.Some? && tide == None ==>
      r == rnd((swell.value + wind.value) / 2.0 * 0.6 + (estimatedReturn - cost) * 0.4)
    ensures swell.Some? && wind == None && tide.Some? ==>
      r == rnd((swell.value + tide.value) / 2.0 * 0.6 + (estimatedReturn - cost) * 0.4)
    ensures swell == None && wind.Some? && tide.Some? ==>
      r == rnd((wind.value + tide.value) / 2.0 * 0.6 + (estimatedReturn - cost) * 0.4)
    ensures swell.Some? && wind == None && tide == None ==>
      r == rnd(swell.value * 0.6 + (estimatedReturn - cost) * 0.4)
    ensures swell == None && wind.Some? && tide == None ==>
      r == rnd(wind.value * 0.6 + (estimatedReturn - cost) * 0.4)
    ensures swell == None && wind == None && tide.Some? ==>
      r == rnd(tide.value * 0.6 + (estimatedReturn - cost) * 0.4)
  {
    RawScoreCases(cost, estimatedReturn, swell, wind, tide);
    rnd(RawScore(cost, estimatedReturn, swell, wind, tide))
  }

  /** The unrounded score in closed form, for each combination of filled slots. */
  lemma RawScoreCases(cost: real, estimatedReturn: real, swell: Option<real>, wind: Option<real>, tide: Option<real>)
    ensures var raw := RawScore(cost, estimatedReturn, swell, wind, tide);
            var base := estimatedReturn - cost;
      && (swell == None && wind == None && tide == None ==> raw == base)
      && (swell.Some? && wind.Some? && tide.Some? ==> raw == (swell.value + wind.value + tide.value) / 3.0 * 0.6 + base * 0.4)
      && (swell.Some? && wind.Some? && tide == None ==> raw == (swell.value + wind.value) / 2.0 * 0.6 + base * 0.4)
      && (swell.Some? && wind == None && tide.Some? ==> raw == (swell.value + tide.value) / 2.0 * 0.6 + base * 0.4)
      && (swell == None && wind.Some? && tide.Some? ==> raw == (wind.value + tide.value) / 2.0 * 0.6 + base * 0.4)
      && (swell.Some? && wind == None && tide == None ==> raw == swell.value * 0.6 + base * 0.4)
      && (swell == None && wind.Some? && tide == None ==> raw == wind.value * 0.6 + base * 0.4)
      && (swell == None && wind == None && tide.Some? ==> raw == tide.value * 0.6 + base * 0.4)
  {
    PresentOfThree(swell, wind, tide);
    var p := Present([swell, wind, tide]);
    match (swell, wind, tide)
    case (Some(s), Some(w), Some(t)) =>
      assert p == [s, w, t];
      MeanOfFew(s, w, t);
    case (Some(s), Some(w), None) =>
      assert p == [s, w];
      MeanOfFew(s, w, 0.0);
    case (Some(s), None, Some(t)) =>
      assert p == [s, t];
      MeanOfFew(s, t, 0.0);
    case (None, Some(w), Some(t)) =>
      assert p == [w, t];
      MeanOfFew(w, t, 0.0);
    case (Some(s), None, None) =>
      assert p == [s];
      MeanOfFew(s, 0.0, 0.0);
    case (None, Some(w), None) =>
      assert p == [w];
      MeanOfFew(w, 0.0, 0.0);
    case (None, None, Some(t)) =>
      assert p == [t];
      MeanOfFew(t, 0.0, 0.0);
    case (None, None, None) =>
      assert p == [];
  }

  lemma MeanOfFew(x: real, y: real, z: real)
    ensures Mean([x]) == x
    ensures Mean([x, y]) == (x + y) / 2.0
    ensures Mean([x, y, z]) == (x + y + z) / 3.0
  {
    SumOfFew(x, y, z);
  }

  /** The present values and their sum, for each combination of filled slots. */
  lemma PresentCases(swell: Option<real>, wind: Option<real>, tide: Option<real>)
    ensures var p := Present([swell, wind, tide]);
      && (swell.Some? && wind.Some? && tide.Some? ==> |p| == 3 && Sum(p) == swell.value + wind.value + tide.value)
      && (swell.Some? && wind.Some? && tide == None ==> |p| == 2 && Sum(p) == swell.value + wind.value)
      && (swell.Some? && wind == None && tide.Some? ==> |p| == 2 && Sum(p) == swell.value + tide.value)
      && (swell == None && wind.Some? && tide.Some? ==> |p| == 2 && Sum(p) == wind.value + tide.value)
      && (swell.Some? && wind == None && tide == None ==> p == [swell.value])
      && (swell == None && wind.Some? && tide == None ==> p == [wind.value])
      && (swell == None && wind == None && tide.Some? ==> p == [tide.value])
  {
    PresentOfThree(swell, wind, tide);
    var p := Present([swell, wind, tide]);
    match (swell, wind, tide)
    case (Some(s), Some(w), Some(t)) =>
      assert p == [s, w, t];
      SumOfFew(s, w, t);
    case (Some(s), Some(w), None) =>
      assert p == [s, w];
      SumOfFew(s, w, 0.0);
    case (Some(s), None, Some(t)) =>
      assert p == [s, t];
      SumOfFew(s, t, 0.0);
    case (None, Some(w), Some(t)) =>
      assert p == [w, t];
      SumOfFew(w, t, 0.0);
    case _ =>
  }

  function Min(a: real, b: real): real { if a <= b then a else b }
  function Max(a: real, b: real): real { if a <= b then b else a }

  /**
   * The weights 0.6 and 0.4 add up to 1, so the unrounded score lies between
   * the conditions mean and the base value.
   */
  lemma RawScoreBetweenConditionsAndBase(cost: real, estimatedReturn: real,
                                         swell: Option<real>, wind: Option<real>, tide: Option<real>)
    requires |Present([swell, wind, tide])| > 0
    ensures var c := Mean(Present([swell, wind, tide]));
            var b := Base(cost, estimatedReturn);
            Min(c, b) <= RawScore(cost, estimatedReturn, swell, wind, tide) <= Max(c, b)
  {
  }

  /** With no sub-score the unrounded score is exactly `estimated_return - cost`. */
  lemma RawScoreWithoutConditions(cost: real, estimatedReturn: real)
    ensures RawScore(cost, estimatedReturn, None, None, None) == estimatedReturn - cost
  {
  }

  lemma {:induction false} SumAppend(a: seq<real>, b: seq<real>)
    ensures Sum(a + b) == Sum(a) + Sum(b)
  {
    if a == [] {
      assert a + b == b;
    } else {
      assert (a + b)[1..] == a[1..] + b;
      SumAppend(a[1..], b);
    }
  }

  /** Taking one element out of a sequence takes its value out of the sum. */
  lemma SumRemove(b: seq<real>, k: nat)
    requires k < |b|
    ensures Sum(b) == b[k] + Sum(b[..k] + b[k + 1..])
  {
    var pre, post := b[..k], b[k + 1..];
    SplitAt(b, k);
    SumAppend(pre, [b[k]] + post);
    SumCons(b[k], post);
    SumAppend(pre, post);
  }

  lemma SplitAt(b: seq<real>, k: nat)
    requires k < |b|
    ensures b == b[..k] + ([b[k]] + b[k + 1..])
  {
  }

  lemma SumCons(x: real, s: seq<real>)
    ensures Sum([x] + s) == x + Sum(s)
  {
    assert ([x] + s)[1..] == s;
  }

  lemma MultisetRemove(b: seq<real>, k: nat)
    requires k < |b|
    ensures multiset(b[..k] + b[k + 1..]) == multiset(b) - multiset{b[k]}
  {
    assert b == b[..k] + [b[k]] + b[k + 1..];
    assert multiset(b) == multiset(b[..k]) + multiset{b[k]} + multiset(b[k + 1..]);
  }

  /** Where `b` holds the first element of its permutation `a`; what remains of both is again a permutation. */
  lemma MatchingIndex(a: seq<real>, b: seq<real>) returns (k: nat)
    requires a != [] && multiset(a) == multiset(b)
    ensures k < |b| && b[k] == a[0]
    ensures multiset(a[1..]) == multiset(b[..k] + b[k + 1..])
  {
    k := IndexOf(b, a[0]);
    MultisetRemove(b, k);
    MultisetRemove(a, 0);
    assert a[..0] + a[1..] == a[1..];
  }

  lemma IndexOf(b: seq<real>, x: real) returns (k: nat)
    requires x in multiset(b)
    ensures k < |b| && b[k] == x
  {
    k :| 0 <= k < |b| && b[k] == x;
  }

  /** The sum of a sequence depends only on its multiset of values. */
  lemma {:induction false} SumPermutation(a: seq<real>, b: seq<real>)
    requires multiset(a) == multiset(b)
    ensures Sum(a) == Sum(b)
    decreases |a|
  {
    if a == [] {
      assert |b| == |multiset(b)| == 0;
    } else {
      var k := MatchingIndex(a, b);
      var rest := b[..k] + b[k + 1..];
      SumPermutation(a[1..], rest);
      SumRemove(b, k);
    }
  }

  /**
   * The score depends only on the multiset of present sub-scores, not on
   * which of the swell, wind and tide slots holds each value.
   */
  lemma RawScoreSlotIndependent(cost: real, estimatedReturn: real,
                                s1: Option<real>, w1: Option<real>, t1: Option<real>,
                                s2: Option<real>, w2: Option<real>, t2: Option<real>)
    requires multiset(Present([s1, w1, t1])) == multiset(Present([s2, w2, t2]))
    ensures RawScore(cost, estimatedReturn, s1, w1, t1) == RawScore(cost, estimatedReturn, s2, w2, t2)
  {
    var p1 := Present([s1, w1, t1]);
    var p2 := Present([s2, w2, t2]);
    assert |p1| == |multiset(p1)| == |multiset(p2)| == |p2|;
    SumPermutation(p1, p2);
  }

  /** Rotating the three slots never changes the final score. */
  lemma ScoreRotationInvariant(rnd: real -> real, cost: real, estimatedReturn: real,
                               swell: Option<real>, wind: Option<real>, tide: Option<real>)
    ensures CalculateScore(rnd, cost, estimatedReturn, swell, wind, tide)
         == CalculateScore(rnd, cost, estimatedReturn, wind, tide, swell)
  {
    PresentOfThree(swell, wind, tide);
    PresentOfThree(wind, tide, swell);
    assert multiset(Present([swell, wind, tide])) == multiset(Present([wind, tide, swell]));
    RawScoreSlotIndependent(cost, estimatedReturn, swell, wind, tide, wind, tide, swell);
  }

  lemma {:induction false} SumBounds(s: seq<real>, lo: real, hi: real)
    requires forall i :: 0 <= i < |s| ==> lo <= s[i] <= hi
    ensures (|s| as real) * lo <= Sum(s) <= (|s| as real) * hi
  {
    if s != [] {
      SumBounds(s[1..], lo, hi);
    }
  }

  /** The conditions value is an average: it lies within the range of the present sub-scores. */
  lemma MeanWithinBounds(s: seq<real>, lo: real, hi: real)
    requires |s| > 0
    requires forall i :: 0 <= i < |s| ==> lo <= s[i] <= hi
    ensures lo <= Mean(s) <= hi
  {
    SumBounds(s, lo, hi);
    var n := |s| as real;
    assert lo * n <= Sum(s) <= hi * n;
    assert Mean(s) * n == Sum(s);
  }

  /**
   * A zero sub-score is not treated as missing: adding it to positive
   * conditions lowers the score.
   */
  lemma ZeroSubScoreLowersScore(cost: real, estimatedReturn: real, swell: real)
    requires swell > 0.0
    ensures RawScore(cost, estimatedReturn, Some(swell), Some(0.0), None)
          < RawScore(cost, estimatedReturn, Some(swell), None, None)
  {
    PresentCases(Some(swell), Some(0.0), None);
    PresentCases(Some(swell), None, None);
    SumOfFew(swell, 0.0, 0.0);
  }

  /** The best case: no cost, full return and perfect conditions give exactly 100. */
  lemma BestCaseScoresHundred()
    ensures RawScore(0.0, 100.0, Some(100.0), Some(100.0), Some(100.0)) == 100.0
  {
    PresentOfThree(Some(100.0), Some(100.0), Some(100.0));
    SumOfFew(100.0, 100.0, 100.0);
  }

  /** The worst case without conditions: cost 100, return 0 gives -100. */
  lemma WorstCaseWithoutConditions()
    ensures RawScore(100.0, 0.0, None, None, None) == -100.0
  {
  }
}

=== FILE: signup.dfy ===
/**
 * The sign-in and sign-up forms of the dashboard (superweirdonebud_supabase.py):
 * which warning a press of each button shows before the hosted
 * authentication service is called at all.
 */
module SignUp {
  import opened Wrappers

  /** The shortest password the sign-up form lets through. */
  const MinPasswordLength: nat := 6

  const SignInIncomplete: string := "Please enter both email and password"
  const SignUpIncomplete: string := "Please enter email and password"
  const PasswordsDiffer: string := "Passwords do not match"
  const PasswordTooShortWarning: string := "Password must be at least 6 characters long"

  /** The outcome of pressing "Sign Up": a warning, or a call to the service. */
  datatype SignUpCheck =
    | MissingCredentials
    | PasswordMismatch
    | PasswordTooShort
    | Proceed
  {
    /** The warning the form shows, if any. */
    function Warning(): (w: Option<string>)
      ensures w.None? <==> this == Proceed
    {
      match this
      case MissingCredentials => Some(SignUpIncomplete)
      case PasswordMismatch => Some(PasswordsDiffer)
      case PasswordTooShort => Some(PasswordTooShortWarning)
      case Proceed => None
    }
  }

  /** What an account request has to satisfy, stated without regard to the order of the checks. */
  predicate AcceptableSignUp(email: string, password: string, confirm: string) {
    email != "" && password == confirm && |password| >= MinPasswordLength
  }

  /**
   * The checks behind "Sign Up", in the order the form makes them: both
   * fields filled in, then the confirmation, then the length. The first
   * failing check wins.
   */
  function CheckSignUp(email: string, password: string, confirm: string): (r: SignUpCheck)
    ensures r == Proceed <==> AcceptableSignUp(email, password, confirm)
    ensures r == MissingCredentials <==> email == "" || password == ""
    ensures r == PasswordMismatch <==> email != "" && password != "" && password != confirm
    ensures r == PasswordTooShort <==> email != "" && password == confirm && 0 < |password| < MinPasswordLength
  {
    if email == "" || password == "" then MissingCredentials
    else if password != confirm then PasswordMismatch
    else if |password| < MinPasswordLength then PasswordTooShort
    else Proceed
  }

  /** A confirmation that differs is reported even when the password is also too short. */
  lemma MismatchReportedBeforeLength(email: string, password: string, confirm: string)
    requires email != "" && password != "" && password != confirm
    ensures CheckSignUp(email, password, confirm).Warning() == Some(PasswordsDiffer)
  {
  }

  /** Each failing check has its own warning, so the user can tell which one failed. */
  lemma WarningsIdentifyTheCheck(a: SignUpCheck, b: SignUpCheck)
    requires a.Warning() == b.Warning()
    ensures a == b
  {
  }

  /** The warning behind "Sign In": none exactly when both fields are filled in. */
  function CheckSignIn(email: string, password: string): (w: Option<string>)
    ensures w.None? <==> email != "" && password != ""
    ensures w.Some? ==> w.value == SignInIncomplete
  {
    if email != "" && password != "" then None else Some(SignInIncomplete)
  }

  /**
   * Both forms take the same fields to be required: sign-in goes ahead
   * exactly when sign-up gets past its first check, whatever the
   * confirmation, though the two word their warning differently.
   */
  lemma SignInAgreesWithSignUp(email: string, password: string, confirm: string)
    ensures CheckSignIn(email, password).None? <==> CheckSignUp(email, password, confirm) != MissingCredentials
    ensures CheckSignIn(email, password).Some? ==>
      CheckSignIn(email, password) != CheckSignUp(email, password, confirm).Warning()
  {
  }
}

=== FILE: wrappers.dfy ===
/** The optional and either-or values shared by every module of the model. */
module Wrappers {

  /** Python's `Optional[T]`: `None` or a present value. */
  datatype Option<+T> = None | Some(value: T) {

    /** The present value, or `default` when absent. */
    function GetOr(default: T): T {
      match this
      case Some(v) => v
      case None => default
    }
  }

  /** Either a value or the error that replaced it. */
  datatype Result<+T, +E> = Success(value: T) | Failure(error: E)
}
